=== FILE: README.md ===
# django-extend-fields in Dafny

A Dafny model of the bookkeeping at the core of `django-extend-fields`. A
`TranslatedField` declared on a Django model fans out into one physical
column per language. Instance access is routed to the active language's
column, and the model joins a class-level registry (`ExtendModelOptions`).
That registry may replace the model's `objects` manager with a synthesised
one whose `update` rewrites logical field names into column names. The
optional Deepl translator and AWS language detector backends are modelled
as well, as decision logic around their SDK calls.

Django, the ambient context and the SDKs become explicit values:
- the active language (`get_language()`) is an `Option<string>` parameter;
- `show_suffix` is a boolean;
- the environment is a `map<string, string>`;
- a model instance is its attribute dictionary;
- a model class is its attribute list plus the parts of `_meta` the registry touches;
- a manager class is its chain of attribute tables;
- the Deepl and AWS clients are function parameters returning either a reply or an exception.

The registry (`models_data`) is a value threaded through `Install`.

Modules, one per file:
- `Results`: `Option` and `Result`.
- `Naming`: `to_attribute`.
- `Dicts`: insertion-ordered dictionaries.
- `ExtendFields`: `ExtendField` construction, verbose names and fan-out.
- `ManagerBuilder`: the override table, the synthesised manager class, `_prepare_data` and `update`.
- `ModelOptions`: `ExtendModelOptions`.
- `TranslatedFields`: `TranslatedField`, its accessors, `proxy_from_orm` and declaration on a model.
- `Backend`: Python values and the backends' error kinds.
- `Translators`: the Deepl backend.
- `LanguageDetector`: the AWS backend.

Two behaviours of the code that its own messages and names do not suggest, both followed by the model:
- `ExtendField.to_attribute` raises `NotImplementedError` in its body but is declared without `self` (extends/bases.py:85-88). The call `self.to_attribute(name, suffix)` therefore raises `TypeError` before the body runs. `ExtendFields.Contribute` reports this as `NamingNotOverridden` on the first suffix.
- Each generated field's `verbose_name` is only defaulted, through `setdefault` (extends/bases.py:98-101). An explicit `verbose_name` in `specific[suffix]` is kept as given (`ExtendFields.SuffixKwargsSemantics`).

## Model

| member | source | states |
|---|---|---|
| Naming.ToAttribute | extends/fields/translated_field.py:12-14 | every character of a physical name is in `[a-z0-9_]` |
| Naming.Collapse | extends/fields/translated_field.py:14 | the substitution of each run of disallowed characters by `_` yields only allowed characters |
| Naming.DropRun | extends/fields/translated_field.py:14 | skipping a run leaves a suffix of the input that starts with an allowed character, or nothing |
| Naming.CollapseIsScan | extends/fields/translated_field.py:14 | the run-by-run substitution equals an independent left-to-right scan that remembers whether it is inside a run |
| Naming.ScanSkipsRun | extends/fields/translated_field.py:14 | inside a run, the scan emits nothing until the run ends |
| Naming.LowerKeepsAllowed | extends/fields/translated_field.py:14 | lower-casing leaves a string of `[a-z0-9_]` unchanged |
| Naming.CollapseKeepsAllowed | extends/fields/translated_field.py:14 | the substitution leaves a string of `[a-z0-9_]` unchanged |
| Naming.NormalizeKeepsAllowed | extends/fields/translated_field.py:14 | lower-case-then-substitute is the identity on already-normal strings |
| Naming.NormalizeIdempotent | extends/fields/translated_field.py:14 | normalising twice is normalising once |
| Naming.ToAttributeVerbatim | extends/fields/translated_field.py:12-14 | a normal name and a non-empty normal language give exactly `name + "_" + lang` |
| Naming.ToAttributeShape | extends/fields/translated_field.py:12-14 | for every field name, a non-empty normal language is appended verbatim, after `_`, to the lower-cased and substituted name |
| Naming.ToAttributeInjective | extends/fields/translated_field.py:12-14 | for any fixed name, whatever its characters, normal non-empty languages give equal physical names if and only if they are equal |
| Naming.SeparatorsCollide | extends/fields/translated_field.py:14 | languages differing in a `-` versus `_` separator (`en-us`, `en_us`) give the same column |
| Naming.CollapseDashed | extends/fields/translated_field.py:14 | a single `-` between normal parts becomes `_` |
| Naming.ExplicitCodeWins | extends/fields/translated_field.py:13 | `ResolveLanguage` (`language_code or get_language()`): a non-empty explicit code ignores the active language; an absent or empty code uses the active language |
| Naming.NoLanguageGivesNone | extends/fields/translated_field.py:13-14 | with no code and no active language the column is `<name>_none` |
| Dicts.PutShape | extends/bases.py:258 | assigning a dictionary key adds it to the key set, keeps an existing key in place and appends a new key at the end |
| Dicts.PutLookups | extends/bases.py:258 | after the assignment the key reads back its value and every other key reads as before |
| Dicts.PutUnique | extends/bases.py:258 | assignment keeps the keys unique |
| Dicts.LookupSpec | extends/bases.py:258 | a lookup succeeds exactly for present keys and returns the stored pair's value |
| ExtendFields.NewExtendField | extends/bases.py:61-74 | the field takes the current global counter and the counter advances by exactly the number of suffixes; a missing suffix list fails |
| ExtendFields.VerboseNameModes | extends/bases.py:76-83 | `VerboseNameMaybeSuffix`: hidden, a label renders as the plain verbose name; shown, as that name capitalised and followed by ` [suffix]`, agreeing with the plain form after the first character |
| ExtendFields.SuffixKwargsSemantics | extends/bases.py:95-101 | `SuffixKwargs`: per-suffix kwargs are the base kwargs overridden by `specific[suffix]`; `verbose_name` is defaulted to the suffixed label only when the override lacks one |
| ExtendFields.Contribute | extends/bases.py:85-110 | fan-out fails exactly for the base class with at least one suffix; otherwise it yields the per-suffix fields |
| ExtendFields.ContributeFields | extends/bases.py:96-109 | one generated field per suffix, in suffix order, with `fields` listing their attribute names |
| ExtendFields.ContributeLayout | extends/bases.py:96-110 | the i-th field is named `to_attribute(name, suffix_i)`, carries that suffix, the template's class and arguments, and counter `creation_counter + i`; `short_description` is the base verbose name |
| ExtendFields.CountersInReservedBlock | extends/bases.py:73-104 | every generated counter lies in the block reserved by the constructor, strictly increasing |
| ExtendFields.ConsecutiveFieldsOrdered | extends/bases.py:73-74 | two fields declared in turn get disjoint blocks, the first entirely below the second |
| ExtendFields.PhysicalNamesMatchSuffixes | extends/bases.py:96-107 | for every field name, normal distinct suffixes give pairwise distinct generated names, each the normalised name, `_` and its suffix; for a normal name they are exactly `name_suffix` |
| ManagerBuilder.OverrideTable | extends/manager_builder.py:39-56 | the table has a wrapper for exactly the plain functions of the class, each delegating to the function of the same name |
| ManagerBuilder.WorkpieceOverrides | extends/manager_builder.py:8-56 | the workpiece overrides exactly `update` and `_prepare_data` |
| ManagerBuilder.CreateManagerResolution | extends/manager_builder.py:63-70 | `CreateManager`: the synthesised class has the source class as base; `update` and `_prepare_data` resolve to the workpiece, all else as on the source class |
| ManagerBuilder.PrepareData | extends/manager_builder.py:23-37 | fails exactly on an empty descriptor table; the returned descriptor is the last one in table order |
| ManagerBuilder.PrepareFromInvariant | extends/manager_builder.py:29-35 | the loop keeps the moved names out of the rest map and their values under their physical names |
| ManagerBuilder.PoppedStep | extends/manager_builder.py:30-35 | one loop step moves the current name exactly when it is present and its descriptor has no `auto` |
| ManagerBuilder.PrepareDataPartition | extends/manager_builder.py:29-37 | the rest map is the input minus the moved names; the translated map's keys are exactly the moved names' columns, each holding a moved value; every input key lands in exactly one map |
| ManagerBuilder.PoppedMembership | extends/manager_builder.py:29-35 | a name is moved if and only if it is in the kwargs and some registered descriptor of that name has no `auto` |
| ManagerBuilder.Update | extends/manager_builder.py:10-21 | `update` prepares the data once and targets the base class's `update`; it fails exactly on an empty descriptor table |
| ManagerBuilder.UpdateCallsOriginal | extends/manager_builder.py:15 | over a Django manager class, the final call is that class's own `update`, never the wrapper |
| ModelOptions.ScanMarkers | extends/bases.py:205-212 | the scan's count is the number of markers and it keeps the first one |
| ModelOptions.FindExtendMeta | extends/bases.py:201-221 | no marker gives `None`, exactly one gives that marker, more than one is an error carrying the count |
| ModelOptions.WithoutObjects | extends/bases.py:192-194 | the filter keeps exactly the managers not named `objects` |
| ModelOptions.WithoutObjectsConcat | extends/bases.py:192-194 | the filter distributes over concatenation, so kept managers stay in order |
| ModelOptions.KeptManagers | extends/bases.py:184-194 | when the model already has an `objects` manager, no kept local manager is named `objects` |
| ModelOptions.CreateManagerOpts | extends/bases.py:166-198 | fails exactly without a proxy; otherwise resets the descriptor table, keeps the other local managers in order (all of them, or those not named `objects` when the model had an `objects` manager), appends the synthesised `objects` manager carrying the proxy, and leaves `managers_map` as it was |
| ModelOptions.InstallRegistryKeys | extends/bases.py:232-243 | from a registry of at most one model, an install leaves exactly the installed model, unless a model with several markers was rejected before anything was written |
| ModelOptions.ReinstallUpdatesOnly | extends/bases.py:246-252 | re-installing replaces only the field name and descriptor; the marker, proxy and managers stay |
| ModelOptions.RecordDescriptor | extends/bases.py:160-164 | with a descriptor table, the field reads back its descriptor, every other entry reads as before and `_property_names` gains the field; without one, `_meta` is unchanged; managers are never touched |
| ModelOptions.Install | extends/bases.py:223-258 | the registry keeps at most the installed model besides what it held, and only that model when it was new; a registered model never fails; a failure is several markers (nothing recorded) or a missing proxy (`_meta` unchanged); on success the entry holds the field and descriptor and the table, if any, maps the field to it |
| ModelOptions.InstallAll | extends/bases.py:223-258 | installing fields in turn keeps the registry to the model when it was new, records it on success, and fails only for several markers or a missing proxy |
| ModelOptions.ManagerOverrideConditions | extends/bases.py:235-245 | the manager is rebuilt only on a first install whose marker asks for it; then a missing proxy is an error leaving `_meta` untouched, and a given one yields a one-field descriptor table, the kept local managers followed by a new `objects` manager, and an unchanged `managers_map` |
| ModelOptions.DescriptorAccumulates | extends/bases.py:254-258 | with a descriptor table, install adds the field without touching other entries and `_property_names` gains exactly the field |
| ModelOptions.FirstOverridingInstall | extends/bases.py:232-258 | the first install of an overriding model with a proxy leaves one registry entry and a one-field table |
| ModelOptions.InstallAllLater | extends/bases.py:246-258 | installing further fields of a registered model adds exactly their names to the table and `_property_names` |
| ModelOptions.InstallAllKeepsKeys | extends/bases.py:246-252 | installing further fields of the registered model keeps the registry to that model |
| ModelOptions.DeclareRest | extends/bases.py:246-258 | after the first field, the remaining fields complete the table to all declared names |
| ModelOptions.DeclareOverridingModel | extends/bases.py:223-258 | declaring all fields of an overriding model leaves a one-model registry and a table and `_property_names` holding exactly the declared names |
| TranslatedFields.DefaultSuffixes | extends/fields/translated_field.py:47 | a non-empty given suffix list is kept; otherwise the suffixes are the language codes of the settings, in order |
| TranslatedFields.NewTranslatedField | extends/fields/translated_field.py:37-54 | construction always succeeds, with the default suffixes and a reserved counter block of their size |
| TranslatedFields.TranslatedContributeSucceeds | extends/fields/translated_field.py:56-57 | a translated field's fan-out never fails and yields one name per suffix |
| TranslatedFields.GetterLanguage | extends/fields/translated_field.py:18 | the getter's language is the active one when truthy, else the first suffix; no suffix and no active language is an error |
| TranslatedFields.Getter | extends/fields/translated_field.py:17-18 | the getter returns the value of the resolved column and fails when that column is missing |
| TranslatedFields.GetterReadsGeneratedColumn | extends/fields/translated_field.py:18 | with an active language among the suffixes, the getter reads the column generated for it |
| TranslatedFields.GetterFallsBackToFirstColumn | extends/fields/translated_field.py:18 | without an active language the getter reads the first generated column |
| TranslatedFields.Setter | extends/fields/translated_field.py:21-22 | the setter writes the column `_prepare_data` also uses for the name (`ManagerBuilder.Phys`) and leaves every other attribute unchanged |
| TranslatedFields.SetThenGet | extends/fields/translated_field.py:17-22 | under a truthy active language, reading back returns the value written |
| TranslatedFields.SetterMissesFallbackColumn | extends/fields/translated_field.py:21-22 | without an active language the setter writes `<name>_none` and the getter still returns the old value |
| TranslatedFields.SetterCorrected | extends/fields/translated_field.py:17-22 | the corrected setter writes the getter's column, so reading back always returns the value written |
| TranslatedFields.SetterCorrectedAgrees | extends/fields/translated_field.py:21-22 | under a truthy active language the corrected setter is the original one |
| TranslatedFields.DescriptorGet | extends/bases.py:138-141 | class access returns the descriptor itself; instance access returns the getter's value or its error |
| TranslatedFields.ProxyFromOrm | extends/fields/translated_field.py:25-32 | an as-is keyword named `translated_fields` or `orm_call` is a binding error; otherwise the ORM is called once with the union of both keyword maps, and overlapping keys are an error |
| TranslatedFields.ManagerUpdateAsWritten | extends/manager_builder.py:10-21 | as written, `update` fails on every call: on an empty table, and otherwise on the proxy lookup |
| TranslatedFields.ManagerUpdate | extends/manager_builder.py:10-21 | the corrected `update` targets the base `update`; it fails on an empty table, on a manager without a proxy, exactly on an untranslated keyword named like a parameter of the proxy, or on a keyword clash, never on the descriptor lookup |
| TranslatedFields.ManagerUpdateRewrites | extends/manager_builder.py:10-37 | through a synthesised manager, the base `update` receives untranslated kwargs unchanged and translated ones under their columns; an untranslated keyword named `translated_fields` or `orm_call` is a binding error; otherwise it fails exactly on a clash between a column and an as-is keyword |
| TranslatedFields.SingleFieldUpdate | extends/manager_builder.py:10-37 | updating the only translated field passes its value under the active column, and fails as written |
| TranslatedFields.DeclareAsWritten | extends/fields/translated_field.py:59-61 | as written, a translated field's fan-out succeeds with the contributed fields; an install failure is several markers or the missing proxy; on success the registry entry holds the field's descriptor |
| TranslatedFields.Declare | extends/fields/translated_field.py:59-61 | with the proxy passed, the fan-out succeeds, the only possible failure is several markers, and on success the registry entry holds the field's descriptor |
| TranslatedFields.DeclareAsWrittenRejectsOverride | extends/fields/translated_field.py:59-61 | as written, the first translated field of an overriding model is rejected for the missing proxy |
| TranslatedFields.DeclareInstallsManager | extends/fields/translated_field.py:59-61 | with the proxy passed, that declaration succeeds and installs an `objects` manager carrying the proxy |
| TranslatedFields.DeclareAgreesWithoutOverride | extends/fields/translated_field.py:59-61 | for models that do not ask for the override, passing the proxy changes neither `_meta` nor the outcome |
| TranslatedFields.QuestionDeclaration | testapp/testapp/models.py:8-21 | for a model whose `ExtendMeta` sets `override_query = True`, with its translated fields declared without `auto=` (the sample `Question` with `auto=` removed), declaring `question` on a fresh registry fails as written and succeeds corrected |
| TranslatedFields.QuestionUpdate | testapp/testapp/tests/translated_field_tests/test_orm.py:49-54 | after declaring only the `question` field on the corrected model (the sample `Question` with `auto=` removed), `Question.objects.update(question=v)` fails as written and passes `v` under the active column when corrected |
| Backend.DictGet | extends/opportunity/language_detector.py:32 | `get` is `Dicts.Lookup` on the string key: a stored value of a present key, and `None` for an absent one |
| Translators.GetLanguageMapper | extends/opportunity/translators.py:26-39 | the mapper is accepted exactly when present, a dict, and all keys and values are strings; its keys are the dict's keys and each maps to its item's value |
| Translators.ItemsToMap | extends/opportunity/translators.py:39 | the dict's items become a map with the same keys, each value taken from an item |
| Translators.ItemsToMapValues | extends/opportunity/translators.py:39 | every item whose key does not recur later (in a dict, every item) reads back its own value |
| Translators.MapperOfDict | extends/opportunity/translators.py:26-39 | a dict whose keys and values are all strings is accepted, with exactly its keys, each reading back its own value |
| Translators.DefaultMapperAccepted | extends/opportunity/translators.py:20-39 | the shipped mapper passes the checks and reads as `en_us → EN-US`, `ru → RU`, `de → DE` |
| Translators.ReplaceAll | extends/opportunity/translators.py:75-79 | replacing a character changes exactly its occurrences |
| Translators.ResolveCode | extends/opportunity/translators.py:71-85 | a direct hit wins; otherwise one retry with swapped separators; two misses are a data error; any result is a non-empty mapper value |
| Translators.DefaultMapperResolution | extends/opportunity/translators.py:20-85 | with the shipped mapper `en_us` and `en-us` resolve to `EN-US` and `EN_US` fails |
| Translators.ValidateResponse | extends/opportunity/translators.py:45-58 | only a `TextResult` with string fields is accepted, copied unchanged; anything else is a data error |
| Translators.MakeRequest | extends/opportunity/translators.py:60-67 | a connection exception becomes a translator connection error; other exceptions pass through; a reply is returned unchanged |
| Translators.TranslateText | extends/opportunity/translators.py:69-89 | a result comes from one client call with the resolved code; mapper and resolution failures come first; once the code resolves, the client's reply is validated and a raised exception propagates as `make_request` maps it |
| Translators.GetTranslator | extends/opportunity/translators.py:92-102 | the translator is built exactly when the key variable is set and non-empty, with that key |
| LanguageDetector.ParseEntries | extends/opportunity/language_detector.py:30-38 | all entries valid if and only if success, then same length and order with code and score copied; otherwise the error of the first invalid entry |
| LanguageDetector.ValidateResponse | extends/opportunity/language_detector.py:24-38 | a non-list payload is a data error; a list is parsed entry by entry |
| LanguageDetector.MakeRequest | extends/opportunity/language_detector.py:40-62 | invalid-request and server exceptions become connection errors, size-limit a data error; success exactly for a dict with status 200, returned unchanged; any other status is a connection error |
| LanguageDetector.DetectLanguages | extends/opportunity/language_detector.py:64-67 | a result comes from one call with the text, a 200 response and a valid `Languages` list mapped entry by entry; request errors propagate; after a successful request the result is the validation of `Languages`, so a 200 response with a valid list succeeds |
| LanguageDetector.GetDetector | extends/opportunity/language_detector.py:70-98 | empty client or region names are rejected first; success exactly when both credentials are set; otherwise the error is the missing-variables error naming exactly the missing ones in order |
| LanguageDetector.DefaultArgumentsAccepted | extends/opportunity/language_detector.py:70-80 | with the default names, the detector is built exactly when no credential is missing |

## Left out

- Django itself is out: `Field.deconstruct`, the physical fields' own `contribute_to_class`, `lazy()`, `Options`, `managers_map` and manager installation. A field is its deconstructed class, arguments and keyword arguments. `_meta` is reduced to `_property_names`, `extend_descriptor`, `local_managers` and `managers_map`.
- `managers_map` is not refreshed after the manager override, because Django derives it and caches it. `local_managers` is modelled exactly.
- `capfirst` and `str.upper` act on ASCII letters only, because Unicode case mapping is not modelled.
- Naming.LowerChar: models `str.lower()` exactly only where the result can contain a `[a-z0-9_]` character (ASCII capitals, KELVIN SIGN, LATIN CAPITAL LETTER I WITH DOT ABOVE). Other characters are kept unchanged. This changes no physical name, because they end up replaced by `_` either way.
- Ambient state is passed in explicitly: `ContextVar` `show_suffix`, `get_language()`, `os.getenv` and the global `Field.creation_counter`.
- Custom `attrgetter`/`attrsetter` callables and custom `orm_proxy` callables are out, because their code is not available. Only the library's own accessors and `proxy_from_orm` are modelled.
- The Deepl and AWS SDK calls are function parameters returning a reply or an exception, since the network is out of scope. `boto3.client` and `deepl.Translator` construction are reduced to records of their arguments.
- LanguageDetector.ParseEntries: pydantic validation is modelled as type checks only. A `str` field needs a string and a `float` field needs an int or a float; lax coercions such as a numeric string accepted as a float are not modelled. Scores are opaque values with no arithmetic.
- Exception messages, warnings and colour output are out; errors are kinds in a datatype.
- A keyword argument named `self` passed to `update` is rejected by Python's call binding before the library's code runs. The keyword maps of `ManagerBuilder.Update` and `TranslatedFields.ManagerUpdate` do not exclude it, because this is a property of Python calls and not of the library.
- The auto-translation machinery is out because it is never wired in: `AutoConvert`, `ConverterMixin` and the `auto` argument that the sample model passes but `TranslatedField.__init__` does not accept. Descriptors carry an `auto` flag only so that `_prepare_data` can skip such entries.
- `_create_manager`'s `ManagerBuilderExceptions` branch is out, because `manager_builder` is always set on the class.
- The validators stub, the scratch script, the abstract base classes and the re-export modules have no behaviour of their own.
- The registry entry's `opts` is the model's own `_meta`, carried by `ModelClass` rather than copied into the entry.

## Findings

| source | as written | input that shows it | evidently intended | confidence | as-written member | corrected member |
|---|---|---|---|---|---|---|
| extends/fields/translated_field.py:21-22 | the setter writes `to_attribute(name)` with no fallback, while the getter falls back to the first suffix | no active language, suffixes `["en"]`, instance `{question_en: "old"}`: setting `"new"` writes `question_none` and reading returns `"old"` | the setter writes the column the getter reads | medium, not executed | TranslatedFields.Setter, TranslatedFields.SetterMissesFallbackColumn | TranslatedFields.SetterCorrected, TranslatedFields.SetterCorrectedAgrees |
| extends/fields/translated_field.py:59-61 | `TranslatedField.contribute_to_class` calls `install` without `orm_proxy`, so the override branch raises `ValueError` | a model whose `ExtendMeta` sets `override_query = True`, with its translated fields declared without `auto=` (for example the sample `Question` with `auto=` removed), on a fresh registry | pass the library's `proxy_from_orm` to `install` | medium, not executed | TranslatedFields.DeclareAsWritten, TranslatedFields.DeclareAsWrittenRejectsOverride | TranslatedFields.Declare, TranslatedFields.DeclareInstallsManager |
| extends/manager_builder.py:17 | `update` calls `desc.proxy_from_orm`, which no descriptor class defines; the proxy is stored on the manager as `orm_proxy` (extends/bases.py:195) | `Question.objects.update(question="v")` after `question` is declared, by the corrected declaration, on the sample `Question` with `auto=` removed | call the manager's `orm_proxy` | medium, not executed | TranslatedFields.ManagerUpdateAsWritten, TranslatedFields.QuestionUpdate | TranslatedFields.ManagerUpdate, TranslatedFields.ManagerUpdateRewrites |

=== FILE: backend.dfy ===
/**
 * Values and error kinds shared by the translation and language-detection
 * backends. Responses from the remote services are loosely typed Python
 * objects; `PyVal` is the part of Python's value space the backends inspect.
 */
module Backend {
  import Dicts

  datatype PyVal =
    | PyNone
    | PyBool(b: bool)
    | PyInt(i: int)
    | PyFloat(r: real)
    | PyStr(s: string)
    | PyList(items: seq<PyVal>)
    | PyDict(entries: seq<(PyVal, PyVal)>)
    | PyObject(typeName: string)

  /** `d.get(key)` on a dict with a string key: `Dicts.Lookup`, with an absent key read as `None`. */
  function DictGet(entries: seq<(PyVal, PyVal)>, key: string): (r: PyVal)
    ensures (exists i :: 0 <= i < |entries| && entries[i].0 == PyStr(key)) ==>
      exists i :: 0 <= i < |entries| && entries[i] == (PyStr(key), r)
    ensures (forall i :: 0 <= i < |entries| ==> entries[i].0 != PyStr(key)) ==> r == PyNone
  {
    Dicts.LookupSpec(entries, PyStr(key));
    match Dicts.Lookup(entries, PyStr(key))
    case Some(v) => v
    case None => PyNone
  }

  /** Which backend an error belongs to (the `Translator…`/`Detector…` exception families). */
  datatype Service = Translator | Detector

  datatype ApiError =
    | ConnectionError(service: Service)   // TranslatorConnectionError, DetectorConnectionError
    | DataError(service: Service)         // TranslatorDataError, DetectorDataError
    | MapperAssertion                     // AssertionError raised while checking LANGUAGE_MAPPER
    | MissingEnv(names: seq<string>)      // AttributeError naming the unset environment variables
    | MissingClientArgs                   // ValueError for an empty client or region name
    | Uncaught(exception: string)         // an exception the code lets propagate unchanged

  /** Python truthiness of an environment lookup: set and non-empty. */
  predicate EnvSet(env: map<string, string>, key: string) {
    key in env && env[key] != ""
  }
}

=== FILE: dicts.dfy ===
/** Python dicts as insertion-ordered association lists with unique keys. */
module Dicts {
  import opened Results

  predicate UniqueKeys<K(==), V>(d: seq<(K, V)>) {
    forall i, j :: 0 <= i < j < |d| ==> d[i].0 != d[j].0
  }

  function Keys<K, V>(d: seq<(K, V)>): set<K> {
    set i | 0 <= i < |d| :: d[i].0
  }

  lemma KeysCons<K, V>(d: seq<(K, V)>)
    requires |d| > 0
    ensures Keys(d) == {d[0].0} + Keys(d[1..])
  {
    forall x | x in Keys(d) ensures x in {d[0].0} + Keys(d[1..]) {
      var i :| 0 <= i < |d| && d[i].0 == x;
      if i > 0 { assert d[1..][i - 1].0 == x; }
    }
    forall x | x in Keys(d[1..]) ensures x in Keys(d) {
      var i :| 0 <= i < |d[1..]| && d[1..][i].0 == x;
      assert d[i + 1].0 == x;
    }
  }

  /** `d.get(k)`: the value stored under `k`, if any. */
  function Lookup<K(==), V>(d: seq<(K, V)>, k: K): Option<V> {
    if |d| == 0 then None
    else if d[0].0 == k then Some(d[0].1)
    else Lookup(d[1..], k)
  }

  lemma {:induction false} LookupSpec<K, V>(d: seq<(K, V)>, k: K)
    ensures Lookup(d, k).Some? <==> k in Keys(d)
    ensures Lookup(d, k).Some? ==> exists i :: 0 <= i < |d| && d[i] == (k, Lookup(d, k).value)
  {
    if |d| > 0 {
      KeysCons(d);
      LookupSpec(d[1..], k);
      if d[0].0 != k && Lookup(d, k).Some? {
        var i :| 0 <= i < |d[1..]| && d[1..][i] == (k, Lookup(d, k).value);
        assert d[i + 1] == (k, Lookup(d, k).value);
      }
    }
  }

  /** `d[k] = v`: an existing key keeps its position, a new key goes to the end. */
  function Put<K(==), V>(d: seq<(K, V)>, k: K, v: V): seq<(K, V)> {
    if |d| == 0 then [(k, v)]
    else if d[0].0 == k then [(k, v)] + d[1..]
    else [d[0]] + Put(d[1..], k, v)
  }

  /** Writing a key replaces its value in place or appends it; no other item moves. */
  lemma {:induction false} PutShape<K, V>(d: seq<(K, V)>, k: K, v: V)
    ensures Keys(Put(d, k, v)) == Keys(d) + {k}
    ensures k in Keys(d) ==> |Put(d, k, v)| == |d|
    ensures k in Keys(d) ==> forall i :: 0 <= i < |d| && d[i].0 != k ==> Put(d, k, v)[i] == d[i]
    ensures k !in Keys(d) ==> Put(d, k, v) == d + [(k, v)]
  {
    var r := Put(d, k, v);
    if |d| == 0 {
      KeysCons(r);
    } else if d[0].0 == k {
      KeysCons(d);
      KeysCons(r);
      assert r[1..] == d[1..];
    } else {
      PutShape(d[1..], k, v);
      KeysCons(d);
      KeysCons(r);
      assert r[1..] == Put(d[1..], k, v);
    }
  }

  /** After `d[k] = v`, `k` reads back `v` and every other key reads as before. */
  lemma {:induction false} PutLookups<K, V>(d: seq<(K, V)>, k: K, v: V)
    ensures Lookup(Put(d, k, v), k) == Some(v)
    ensures forall k' :: k' != k ==> Lookup(Put(d, k, v), k') == Lookup(d, k')
  {
    if |d| > 0 && d[0].0 != k {
      PutLookups(d[1..], k, v);
      assert Put(d, k, v)[1..] == Put(d[1..], k, v);
    } else if |d| > 0 {
      assert Put(d, k, v)[1..] == d[1..];
    }
  }

  lemma UniqueTail<K, V>(d: seq<(K, V)>)
    requires |d| > 0 && UniqueKeys(d)
    ensures UniqueKeys(d[1..]) && d[0].0 !in Keys(d[1..])
  {
    forall i, j | 0 <= i < j < |d[1..]| ensures d[1..][i].0 != d[1..][j].0 {
      assert d[1..][i] == d[i + 1] && d[1..][j] == d[j + 1];
    }
    forall i | 0 <= i < |d[1..]| ensures d[1..][i].0 != d[0].0 {
      assert d[1..][i] == d[i + 1];
    }
  }

  /** Writing a key keeps the keys unique. */
  lemma {:induction false} PutUnique<K, V>(d: seq<(K, V)>, k: K, v: V)
    requires UniqueKeys(d)
    ensures UniqueKeys(Put(d, k, v))
  {
    var r := Put(d, k, v);
    if |d| > 0 && d[0].0 == k {
      forall i, j | 0 <= i < j < |r| ensures r[i].0 != r[j].0 {
        assert r[j] == d[j];
      }
    } else if |d| > 0 {
      var t := Put(d[1..], k, v);
      UniqueTail(d);
      PutUnique(d[1..], k, v);
      PutShape(d[1..], k, v);
      forall i, j | 0 <= i < j < |r| ensures r[i].0 != r[j].0 {
        if i == 0 {
          assert r[j].0 == t[j - 1].0;
          assert t[j - 1].0 in Keys(t);
        } else {
          assert r[i] == t[i - 1] && r[j] == t[j - 1];
        }
      }
    }
  }
}

=== FILE: extend_fields.dfy ===
/**
 * Field fan-out: one declared field becomes one physical field per language
 * suffix. A Django field is reduced to what `deconstruct()` yields (its
 * class, positional arguments and keyword arguments); the global
 * `Field.creation_counter` is passed in and handed back.
 */
module ExtendFields {
  import opened Results
  import Naming

  /**
   * A keyword-argument value. `Text` is a string, `Value` any other Python
   * value (kept as its `str()` text), and `Label` the lazy per-suffix verbose
   * name, rendered only when Django asks for it.
   */
  datatype Arg = Text(s: string) | Value(text: string) | Label(verbose: Arg, suffix: string)

  type Kwargs = map<string, Arg>

  const VerboseNameKey := "verbose_name"

  /** A Django field as returned by `deconstruct()`. */
  datatype FieldTemplate = FieldTemplate(kind: string, args: seq<Arg>, kwargs: Kwargs)

  /** The base `ExtendField` has no naming policy of its own; `TranslatedField` names by language. */
  datatype FieldClass = PlainExtendField | TranslatedFieldClass

  datatype ExtendField = ExtendField(
    cls: FieldClass,
    template: FieldTemplate,
    specific: map<string, Kwargs>,
    suffixes: seq<string>,
    creationCounter: int)

  /** An `ExtendFieldDescriptor` as the registry and the manager see it. */
  datatype Descriptor = Descriptor(field: ExtendField, auto: bool)

  datatype FieldError =
    | SuffixesNotGiven      // `len(None)` when no suffix list reaches `ExtendField.__init__`
    | NamingNotOverridden   // the base class's `to_attribute` cannot be called

  /** One generated Django field, installed on the model under `attr`. */
  datatype PhysicalField = PhysicalField(
    attr: string,
    suffix: string,
    kind: string,
    args: seq<Arg>,
    kwargs: Kwargs,
    creationCounter: int)

  /** What `contribute_to_class` leaves behind: `fields`, the physical fields and `short_description`. */
  datatype Contribution = Contribution(fields: seq<string>, physical: seq<PhysicalField>, shortDescription: Arg)

  /**
   * `ExtendField.__init__`: takes the current global creation counter as its
   * own and reserves one counter per suffix.
   */
  function NewExtendField(
    cls: FieldClass,
    template: FieldTemplate,
    specific: Option<map<string, Kwargs>>,
    suffixes: Option<seq<string>>,
    counter: int): (r: Result<(ExtendField, int), FieldError>)
    ensures r.Ok? <==> suffixes.Some?
    ensures r.Ok? ==> r.value.0.creationCounter == counter && r.value.1 == counter + |suffixes.value|
    ensures r.Ok? ==> r.value.0.suffixes == suffixes.value && r.value.0.cls == cls && r.value.0.template == template
    ensures r.Ok? ==> r.value.0.specific == (if specific.Some? then specific.value else map[])
  {
    if suffixes.None? then Err(SuffixesNotGiven)
    else
      var spec := if specific.Some? then specific.value else map[];
      Ok((ExtendField(cls, template, spec, suffixes.value, counter), counter + |suffixes.value|))
  }

  // ---------------------------------------------------------------------------
  // Verbose names.

  function UpperChar(c: char): char {
    if 'a' <= c <= 'z' then (c as int - 32) as char else c
  }

  /** Django's `capfirst`: the first character upper-cased. */
  function CapFirst(s: string): string {
    if |s| == 0 then s else [UpperChar(s[0])] + s[1..]
  }

  /** `str(value)`; a label renders according to whether suffixes are shown at that moment. */
  function Str(a: Arg, showSuffix: bool): string {
    match a
    case Text(s) => s
    case Value(r) => r
    case Label(v, suffix) =>
      if showSuffix then CapFirst(Str(v, showSuffix)) + " [" + suffix + "]" else Str(v, showSuffix)
  }

  /** `_verbose_name_maybe_suffix(verbose_name, suffix)` rendered with the suffix display on or off. */
  function VerboseNameMaybeSuffix(verbose: Arg, suffix: string, showSuffix: bool): string {
    Str(Label(verbose, suffix), showSuffix)
  }

  /**
   * The two renderings of a label for a plain verbose name: hidden, it is
   * the name itself; shown, it is that name capitalised and followed by
   * ` [<suffix>]`, which can be cut off again to recover the hidden form up
   * to the first letter's case.
   */
  lemma VerboseNameModes(verbose: Arg, suffix: string)
    requires !verbose.Label?
    ensures VerboseNameMaybeSuffix(verbose, suffix, false) == Str(verbose, true)
    ensures VerboseNameMaybeSuffix(verbose, suffix, true)
      == CapFirst(VerboseNameMaybeSuffix(verbose, suffix, false)) + " [" + suffix + "]"
    ensures var plain := VerboseNameMaybeSuffix(verbose, suffix, false);
      var shown := VerboseNameMaybeSuffix(verbose, suffix, true);
      && |shown| == |plain| + |suffix| + 3
      && shown[|plain|..] == " [" + suffix + "]"
      && (|plain| > 0 ==> shown[1..|plain|] == plain[1..])
  {
    assert Str(verbose, false) == Str(verbose, true) by {
      match verbose
      case Text(_) =>
      case Value(_) =>
    }
  }

  // ---------------------------------------------------------------------------
  // Fan-out.

  /** The verbose name popped from the base keyword arguments, or the attribute name. */
  function BaseVerbose(template: FieldTemplate, name: string): Arg {
    if VerboseNameKey in template.kwargs then template.kwargs[VerboseNameKey] else Text(name)
  }

  /** `specific.get(suffix, {})`. */
  function Override(specific: map<string, Kwargs>, suffix: string): Kwargs {
    if suffix in specific then specific[suffix] else map[]
  }

  /**
   * The keyword arguments of the field for one suffix:
   * `dict(kwargs, **specific.get(suffix, {}))`, then `setdefault` of the
   * suffixed verbose name.
   */
  function SuffixKwargs(template: FieldTemplate, specific: map<string, Kwargs>, name: string, suffix: string): Kwargs {
    var merged := (template.kwargs - {VerboseNameKey}) + Override(specific, suffix);
    if VerboseNameKey in merged then merged
    else merged[VerboseNameKey := Label(BaseVerbose(template, name), suffix)]
  }

  /**
   * Per-suffix keyword arguments are the base ones overridden by
   * `specific[suffix]`; the verbose name is the override's if it has one and
   * the suffixed label of the base verbose name otherwise.
   */
  lemma SuffixKwargsSemantics(template: FieldTemplate, specific: map<string, Kwargs>, name: string, suffix: string)
    ensures var kw := SuffixKwargs(template, specific, name, suffix);
      && (forall k :: k != VerboseNameKey ==>
            (k in kw <==> k in template.kwargs || k in Override(specific, suffix)))
      && (forall k :: k != VerboseNameKey && k in Override(specific, suffix) ==>
            kw[k] == Override(specific, suffix)[k])
      && (forall k :: k != VerboseNameKey && k !in Override(specific, suffix) && k in template.kwargs ==>
            kw[k] == template.kwargs[k])
      && VerboseNameKey in kw
      && kw[VerboseNameKey] == (if VerboseNameKey in Override(specific, suffix)
                                then Override(specific, suffix)[VerboseNameKey]
                                else Label(BaseVerbose(template, name), suffix))
    ensures suffix !in specific ==>
      SuffixKwargs(template, specific, name, suffix)
        == (template.kwargs - {VerboseNameKey})[VerboseNameKey := Label(BaseVerbose(template, name), suffix)]
  {
  }

  function PhysicalFor(ef: ExtendField, name: string, i: nat, active: Option<string>): PhysicalField
    requires i < |ef.suffixes|
  {
    var suffix := ef.suffixes[i];
    PhysicalField(
      Naming.ToAttribute(name, Some(suffix), active),
      suffix,
      ef.template.kind,
      ef.template.args,
      SuffixKwargs(ef.template, ef.specific, name, suffix),
      ef.creationCounter + i)
  }

  /** The fan-out performed by `contribute_to_class` once a naming policy is available. */
  function ContributeFields(ef: ExtendField, name: string, active: Option<string>): (c: Contribution)
    ensures |c.fields| == |c.physical| == |ef.suffixes|
    ensures forall i :: 0 <= i < |ef.suffixes| ==> c.physical[i] == PhysicalFor(ef, name, i, active)
    ensures forall i :: 0 <= i < |ef.suffixes| ==> c.fields[i] == c.physical[i].attr
  {
    var physical := seq(|ef.suffixes|, i requires 0 <= i < |ef.suffixes| => PhysicalFor(ef, name, i, active));
    Contribution(
      seq(|physical|, i requires 0 <= i < |physical| => physical[i].attr),
      physical,
      BaseVerbose(ef.template, name))
  }

  /**
   * `contribute_to_class`: the base class fails at its first suffix because it
   * has no naming policy; a `TranslatedField` names each field by language.
   */
  function Contribute(ef: ExtendField, name: string, active: Option<string>): (r: Result<Contribution, FieldError>)
    ensures r.Err? <==> ef.cls == PlainExtendField && |ef.suffixes| > 0
    ensures r.Err? ==> r.error == NamingNotOverridden
    ensures r.Ok? ==> r.value == ContributeFields(ef, name, active)
  {
    if ef.cls == PlainExtendField && |ef.suffixes| > 0 then Err(NamingNotOverridden)
    else Ok(ContributeFields(ef, name, active))
  }

  /**
   * The generated fields follow the suffixes in order: the i-th is named
   * `to_attribute(name, suffix_i)`, has that suffix, keeps the template's
   * class and positional arguments, and takes counter `creation_counter + i`.
   */
  lemma ContributeLayout(ef: ExtendField, name: string, active: Option<string>)
    ensures var c := ContributeFields(ef, name, active);
      && |c.fields| == |ef.suffixes|
      && c.shortDescription == BaseVerbose(ef.template, name)
      && forall i :: 0 <= i < |ef.suffixes| ==>
           && c.fields[i] == Naming.ToAttribute(name, Some(ef.suffixes[i]), active)
           && c.physical[i].suffix == ef.suffixes[i]
           && c.physical[i].kind == ef.template.kind
           && c.physical[i].args == ef.template.args
           && c.physical[i].creationCounter == ef.creationCounter + i
  {
  }

  /**
   * Every counter handed to a generated field lies in the block that
   * `ExtendField.__init__` reserved, and distinct fields get distinct counters.
   */
  lemma CountersInReservedBlock(
    cls: FieldClass, template: FieldTemplate, specific: Option<map<string, Kwargs>>,
    suffixes: seq<string>, counter: int, name: string, active: Option<string>)
    ensures var (ef, next) := NewExtendField(cls, template, specific, Some(suffixes), counter).value;
      var c := ContributeFields(ef, name, active);
      && (forall i :: 0 <= i < |c.physical| ==> counter <= c.physical[i].creationCounter < next)
      && (forall i, j :: 0 <= i < j < |c.physical| ==> c.physical[i].creationCounter < c.physical[j].creationCounter)
  {
  }

  /**
   * Two fields declared one after the other take disjoint blocks: all
   * counters of the first come before all counters of the second.
   */
  lemma ConsecutiveFieldsOrdered(
    t1: FieldTemplate, s1: seq<string>, t2: FieldTemplate, s2: seq<string>,
    counter: int, n1: string, n2: string, active: Option<string>)
    ensures var (ef1, mid) := NewExtendField(TranslatedFieldClass, t1, None, Some(s1), counter).value;
      var (ef2, _) := NewExtendField(TranslatedFieldClass, t2, None, Some(s2), mid).value;
      var c1 := ContributeFields(ef1, n1, active);
      var c2 := ContributeFields(ef2, n2, active);
      forall i, j :: 0 <= i < |c1.physical| && 0 <= j < |c2.physical| ==>
        c1.physical[i].creationCounter < c2.physical[j].creationCounter
  {
  }

  /**
   * With distinct non-empty suffixes drawn from `[a-z0-9_]`, the generated
   * attribute names are pairwise distinct for every field name: each is the
   * normalised name, `_` and the suffix. For a name already in `[a-z0-9_]`
   * they are exactly `name_suffix`: one column per language, no others.
   */
  lemma PhysicalNamesMatchSuffixes(ef: ExtendField, name: string, active: Option<string>)
    requires forall i :: 0 <= i < |ef.suffixes| ==> Naming.AllAllowed(ef.suffixes[i]) && ef.suffixes[i] != ""
    requires forall i, j :: 0 <= i < j < |ef.suffixes| ==> ef.suffixes[i] != ef.suffixes[j]
    ensures var c := ContributeFields(ef, name, active);
      && (forall i, j :: 0 <= i < j < |c.fields| ==> c.fields[i] != c.fields[j])
      && (forall i :: 0 <= i < |c.fields| ==> c.fields[i] == Naming.Normalize(name) + "_" + ef.suffixes[i])
      && (Naming.AllAllowed(name) ==> forall i :: 0 <= i < |c.fields| ==> c.fields[i] == name + "_" + ef.suffixes[i])
  {
    var c := ContributeFields(ef, name, active);
    forall i | 0 <= i < |c.fields| ensures c.fields[i] == Naming.Normalize(name) + "_" + ef.suffixes[i] {
      Naming.ToAttributeShape(name, ef.suffixes[i], active);
    }
    if Naming.AllAllowed(name) {
      Naming.NormalizeKeepsAllowed(name);
    }
    forall i, j | 0 <= i < j < |c.fields| ensures c.fields[i] != c.fields[j] {
      Naming.ToAttributeInjective(name, ef.suffixes[i], ef.suffixes[j], active);
    }
  }
}

=== FILE: language_detector.dfy ===
/**
 * The AWS Comprehend language-detection backend: mapping client failures
 * and HTTP status onto the error taxonomy, validating the `Languages`
 * payload, and building the detector from arguments and the environment.
 * The remote call is a parameter (`client`) of the model.
 */
module LanguageDetector {
  import opened Results
  import opened Backend

  const AccessKeyVar := "AWS_ACCESS_KEY_ID"
  const SecretKeyVar := "AWS_SECRET_ACCESS_KEY"
  const DefaultClientName := "comprehend"
  const DefaultRegionName := "us-east-1"

  /** One detected language; the score is kept as the value the service sent. */
  datatype LangsModel = LangsModel(language: string, probability: PyVal)

  predicate IsNumber(v: PyVal) {
    v.PyInt? || v.PyFloat?
  }

  /** An entry of the `Languages` list that builds a `LangsModel`. */
  predicate ValidEntry(e: PyVal) {
    && e.PyDict?
    && DictGet(e.entries, "LanguageCode").PyStr?
    && IsNumber(DictGet(e.entries, "Score"))
  }

  /** The exception an invalid entry raises: no `.get` on a non-dict, a data error otherwise. */
  function EntryError(e: PyVal): ApiError {
    if e.PyDict? then DataError(Detector) else Uncaught("AttributeError")
  }

  function ParseEntries(items: seq<PyVal>): (r: Result<seq<LangsModel>, ApiError>)
    ensures r.Ok? <==> forall i :: 0 <= i < |items| ==> ValidEntry(items[i])
    ensures r.Ok? ==> |r.value| == |items|
    ensures r.Ok? ==> forall i :: 0 <= i < |items| ==>
      r.value[i] == LangsModel(DictGet(items[i].entries, "LanguageCode").s, DictGet(items[i].entries, "Score"))
    ensures r.Err? ==>
      exists k :: && 0 <= k < |items|
                  && !ValidEntry(items[k])
                  && (forall j :: 0 <= j < k ==> ValidEntry(items[j]))
                  && r.error == EntryError(items[k])
  {
    if |items| == 0 then Ok([])
    else
      var e := items[0];
      if !ValidEntry(e) then Err(EntryError(e))
      else
        match ParseEntries(items[1..])
        case Err(err) =>
          ghost var k :| 0 <= k < |items[1..]| && !ValidEntry(items[1..][k])
            && (forall j :: 0 <= j < k ==> ValidEntry(items[1..][j])) && err == EntryError(items[1..][k]);
          assert items[k + 1] == items[1..][k];
          Err(err)
        case Ok(rest) =>
          Ok([LangsModel(DictGet(e.entries, "LanguageCode").s, DictGet(e.entries, "Score"))] + rest)
  }

  /** `validate_response`: the payload must be a list; each entry becomes one `LangsModel`, in order. */
  function ValidateResponse(response: PyVal): (r: Result<seq<LangsModel>, ApiError>)
    ensures !response.PyList? ==> r == Err(DataError(Detector))
    ensures response.PyList? ==> r == ParseEntries(response.items)
  {
    if response.PyList? then ParseEntries(response.items) else Err(DataError(Detector))
  }

  datatype AwsException =
    | InvalidRequestException
    | InternalServerException
    | TextSizeLimitExceededException
    | OtherAwsException(name: string)

  /** What `detect_dominant_language` did: returned a response or raised. */
  datatype DetectReply = Replied(response: PyVal) | Raised(exception: AwsException)

  /** `HTTPStatus.OK == status` in Python: the integer 200 or the float 200.0. */
  predicate IsHttpOk(status: PyVal) {
    status == PyInt(200) || status == PyFloat(200.0)
  }

  function StatusOf(response: PyVal): PyVal
    requires response.PyDict?
  {
    var meta := DictGet(response.entries, "ResponseMetadata");
    if meta.PyDict? then DictGet(meta.entries, "HTTPStatusCode") else PyNone
  }

  /**
   * `make_request`: maps the client's exceptions onto connection and data
   * errors and rejects every status other than 200; a 200 response is
   * returned unchanged.
   */
  function MakeRequest(reply: DetectReply): (r: Result<PyVal, ApiError>)
    ensures reply == Raised(InvalidRequestException) ==> r == Err(ConnectionError(Detector))
    ensures reply == Raised(InternalServerException) ==> r == Err(ConnectionError(Detector))
    ensures reply == Raised(TextSizeLimitExceededException) ==> r == Err(DataError(Detector))
    ensures reply.Raised? && reply.exception.OtherAwsException? ==> r == Err(Uncaught(reply.exception.name))
    ensures r.Ok? <==> reply.Replied? && reply.response.PyDict? && IsHttpOk(StatusOf(reply.response))
    ensures r.Ok? ==> r.value == reply.response
    ensures (&& reply.Replied?
             && reply.response.PyDict?
             && DictGet(reply.response.entries, "ResponseMetadata").PyDict?
             && !IsHttpOk(StatusOf(reply.response)))
      ==> r == Err(ConnectionError(Detector))
  {
    match reply
    case Raised(InvalidRequestException) => Err(ConnectionError(Detector))
    case Raised(InternalServerException) => Err(ConnectionError(Detector))
    case Raised(TextSizeLimitExceededException) => Err(DataError(Detector))
    case Raised(OtherAwsException(name)) => Err(Uncaught(name))
    case Replied(response) =>
      if !response.PyDict? then Err(Uncaught("AttributeError"))
      else
        var meta := DictGet(response.entries, "ResponseMetadata");
        if !meta.PyDict? then Err(Uncaught("AttributeError"))
        else if IsHttpOk(DictGet(meta.entries, "HTTPStatusCode")) then Ok(response)
        else Err(ConnectionError(Detector))
  }

  /** `detect_languages`: one request with `Text=text`, then validation of the response's `Languages`. */
  function DetectLanguages(text: string, client: string -> DetectReply): (r: Result<seq<LangsModel>, ApiError>)
    ensures r.Ok? ==>
      && client(text).Replied?
      && client(text).response.PyDict?
      && IsHttpOk(StatusOf(client(text).response))
      && var langs := DictGet(client(text).response.entries, "Languages");
      && langs.PyList?
      && |r.value| == |langs.items|
      && (forall i :: 0 <= i < |langs.items| ==> ValidEntry(langs.items[i]))
      && forall i :: 0 <= i < |langs.items| ==>
           PyStr(r.value[i].language) == DictGet(langs.items[i].entries, "LanguageCode")
           && r.value[i].probability == DictGet(langs.items[i].entries, "Score")
    ensures MakeRequest(client(text)).Err? ==> r == Err(MakeRequest(client(text)).error)
    ensures MakeRequest(client(text)).Ok? ==>
      r == ValidateResponse(DictGet(client(text).response.entries, "Languages"))
    ensures (&& client(text).Replied?
             && client(text).response.PyDict?
             && IsHttpOk(StatusOf(client(text).response))
             && var langs := DictGet(client(text).response.entries, "Languages");
             && langs.PyList?
             && forall i :: 0 <= i < |langs.items| ==> ValidEntry(langs.items[i]))
      ==> r.Ok?
  {
    var response :- MakeRequest(client(text));
    ValidateResponse(DictGet(response.entries, "Languages"))
  }

  datatype AwsDetector = AwsDetector(clientName: string, regionName: string, accessKey: string, secretKey: string)

  /** The credential variables that are unset or empty, in the order they are checked. */
  function MissingCredentials(env: map<string, string>): seq<string> {
    (if EnvSet(env, AccessKeyVar) then [] else [AccessKeyVar])
    + (if EnvSet(env, SecretKeyVar) then [] else [SecretKeyVar])
  }

  /**
   * `get_detector`: empty client or region names are rejected first; then the
   * detector is built only when both credentials are set, and otherwise the
   * error names exactly the missing ones.
   */
  function GetDetector(clientName: string, regionName: string, env: map<string, string>)
    : (r: Result<AwsDetector, ApiError>)
    ensures r == Err(MissingClientArgs) <==> clientName == "" || regionName == ""
    ensures clientName != "" && regionName != "" ==>
      (r.Ok? <==> EnvSet(env, AccessKeyVar) && EnvSet(env, SecretKeyVar))
    ensures r.Ok? ==> r.value == AwsDetector(clientName, regionName, env[AccessKeyVar], env[SecretKeyVar])
    ensures clientName != "" && regionName != "" && !(EnvSet(env, AccessKeyVar) && EnvSet(env, SecretKeyVar)) ==>
      r.Err? && r.error.MissingEnv?
    ensures r.Err? && r.error.MissingEnv? ==>
      && (forall n :: n in r.error.names <==> (n == AccessKeyVar || n == SecretKeyVar) && !EnvSet(env, n))
      && (|r.error.names| == 2 ==> r.error.names == [AccessKeyVar, SecretKeyVar])
      && |r.error.names| <= 2
  {
    if clientName == "" || regionName == "" then Err(MissingClientArgs)
    else
      var missing := MissingCredentials(env);
      if |missing| == 0 then Ok(AwsDetector(clientName, regionName, env[AccessKeyVar], env[SecretKeyVar]))
      else Err(MissingEnv(missing))
  }

  /** The default client and region names pass the argument check. */
  lemma DefaultArgumentsAccepted(env: map<string, string>)
    ensures GetDetector(DefaultClientName, DefaultRegionName, env).Ok? <==> MissingCredentials(env) == []
  {
  }
}

=== FILE: manager_builder.dfy ===
/**
 * The rewritten manager: a synthesised subclass of the model's manager whose
 * `update` turns logical translated-field names into physical column names
 * before handing everything to an ORM proxy. Classes are modelled by their
 * attribute tables; the active language is a parameter.
 */
module ManagerBuilder {
  import opened Results
  import Naming
  import ExtendFields

  // ---------------------------------------------------------------------------
  // The override table.

  /** How `inspect.isfunction` classifies an attribute reachable on the workpiece class. */
  datatype MemberKind = PlainFunction | NotAFunction

  /**
   * `inspect.getmembers(TranslatedManagerWorkPiece)`, in its sorted order: the
   * two plain functions, the class method (a bound method, not a function)
   * and, as representatives, attributes inherited from `object`.
   */
  const WorkpieceMembers: seq<(string, MemberKind)> := [
    ("__class__", NotAFunction),
    ("__init__", NotAFunction),
    ("__module__", NotAFunction),
    ("_prepare_data", PlainFunction),
    ("get_override_workpiece_methods", NotAFunction),
    ("update", PlainFunction)
  ]

  const UpdateName := "update"
  const PrepareDataName := "_prepare_data"

  /** A wrapper installed in the synthesised class: it calls the workpiece function of the same name. */
  datatype Wrapper = Delegate(target: string)

  /** `get_override_workpiece_methods`: one delegating wrapper per plain function of the workpiece. */
  function OverrideTable(members: seq<(string, MemberKind)>): (t: map<string, Wrapper>)
    ensures forall n :: n in t <==> exists i :: 0 <= i < |members| && members[i] == (n, PlainFunction)
    ensures forall n :: n in t ==> t[n] == Delegate(n)
  {
    if |members| == 0 then map[]
    else
      var t := OverrideTable(members[1..]);
      assert forall i :: 1 <= i < |members| ==> members[i] == members[1..][i - 1];
      if members[0].1 == PlainFunction then t[members[0].0 := Delegate(members[0].0)] else t
  }

  /** The workpiece overrides exactly `update` and `_prepare_data`. */
  lemma WorkpieceOverrides()
    ensures OverrideTable(WorkpieceMembers).Keys == {UpdateName, PrepareDataName}
  {
    var t := OverrideTable(WorkpieceMembers);
    assert WorkpieceMembers[3] == (PrepareDataName, PlainFunction);
    assert WorkpieceMembers[5] == (UpdateName, PlainFunction);
    forall n | n in t ensures n == UpdateName || n == PrepareDataName {
      var i :| 0 <= i < |WorkpieceMembers| && WorkpieceMembers[i] == (n, PlainFunction);
    }
  }

  // ---------------------------------------------------------------------------
  // Manager classes and attribute lookup.

  /** Where an attribute of a manager class comes from. */
  datatype Impl = BaseImpl(owner: string, attr: string) | WorkpieceImpl(name: string)

  /** A Django manager class, or a class synthesised over a base with a table of overrides. */
  datatype ManagerClass =
    | DjangoManagerClass(name: string)
    | TranslatedManager(base: ManagerClass, table: map<string, Wrapper>)

  /** Attribute lookup along the single-inheritance chain. */
  function Resolve(cls: ManagerClass, attr: string): Impl {
    match cls
    case DjangoManagerClass(n) => BaseImpl(n, attr)
    case TranslatedManager(base, table) =>
      if attr in table then WorkpieceImpl(table[attr].target) else Resolve(base, attr)
  }

  /** `ManagerBuilder.create_manager`: a subclass of the source manager's class holding the override table. */
  function CreateManager(src: ManagerClass): ManagerClass {
    TranslatedManager(src, OverrideTable(WorkpieceMembers))
  }

  /**
   * The synthesised class has the source class as its only base; `update`
   * and `_prepare_data` resolve to the workpiece and every other attribute
   * resolves exactly as on the source class.
   */
  lemma CreateManagerResolution(src: ManagerClass, attr: string)
    ensures CreateManager(src).base == src
    ensures attr == UpdateName || attr == PrepareDataName ==> Resolve(CreateManager(src), attr) == WorkpieceImpl(attr)
    ensures attr != UpdateName && attr != PrepareDataName ==> Resolve(CreateManager(src), attr) == Resolve(src, attr)
  {
    WorkpieceOverrides();
  }

  // ---------------------------------------------------------------------------
  // Rewriting `update` keyword arguments.

  /** `opts.extend_descriptor`, in iteration order. */
  type Descriptors = seq<(string, ExtendFields.Descriptor)>

  /** How an `update` through a synthesised manager fails. */
  datatype ManagerError =
    | NoDescriptor          // `desc` is unbound when the descriptor table is empty
    | NoProxyOnDescriptor   // AttributeError: the descriptor has no `proxy_from_orm`
    | NoProxyOnManager      // AttributeError: the manager has no `orm_proxy`
    | ArgumentClash         // TypeError: a keyword names a parameter of `proxy_from_orm`
    | DuplicateKeyword      // TypeError: a keyword given both translated and as-is

  datatype Prepared<V> = Prepared(translated: map<string, V>, rest: map<string, V>, desc: ExtendFields.Descriptor)

  /**
   * `to_attribute(name)` with no explicit code: the column of the active
   * language, which `_prepare_data` writes to and the instance setter assigns.
   */
  function Phys(name: string, active: Option<string>): string {
    Naming.ToAttribute(name, None, active)
  }

  /** The logical names, among the first `i` descriptors, that `_prepare_data` moves out of the keyword arguments. */
  function PoppedUpTo<V>(descs: Descriptors, kwargs: map<string, V>, i: nat): set<string>
    requires i <= |descs|
  {
    set j | 0 <= j < i && descs[j].0 in kwargs && !descs[j].1.auto :: descs[j].0
  }

  function Popped<V>(descs: Descriptors, kwargs: map<string, V>): set<string> {
    PoppedUpTo(descs, kwargs, |descs|)
  }

  function PhysOf(names: set<string>, active: Option<string>): set<string> {
    set n | n in names :: Phys(n, active)
  }

  /** The loop of `_prepare_data` from descriptor `i` on, with the maps built so far. */
  function PrepareFrom<V>(descs: Descriptors, i: nat, translated: map<string, V>, rest: map<string, V>, active: Option<string>)
    : (map<string, V>, map<string, V>)
    requires i <= |descs|
    decreases |descs| - i
  {
    if i == |descs| then (translated, rest)
    else
      var (name, desc) := descs[i];
      if name in rest && !desc.auto then
        PrepareFrom(descs, i + 1, translated[Phys(name, active) := rest[name]], rest - {name}, active)
      else
        PrepareFrom(descs, i + 1, translated, rest, active)
  }

  /** `_prepare_data`: the physical-column map, the remaining keyword arguments and the last descriptor seen. */
  function PrepareData<V>(descs: Descriptors, kwargs: map<string, V>, active: Option<string>)
    : (r: Result<Prepared<V>, ManagerError>)
    ensures r.Err? <==> |descs| == 0
    ensures r.Ok? ==> r.value.desc == descs[|descs| - 1].1
  {
    if |descs| == 0 then Err(NoDescriptor)
    else
      var (translated, rest) := PrepareFrom(descs, 0, map[], kwargs, active);
      Ok(Prepared(translated, rest, descs[|descs| - 1].1))
  }

  /** What has been moved after `i` descriptors: the invariant of the loop in `_prepare_data`. */
  ghost predicate PreparedUpTo<V>(descs: Descriptors, kwargs: map<string, V>, i: nat,
                            translated: map<string, V>, rest: map<string, V>, active: Option<string>)
    requires i <= |descs|
  {
    var popped := PoppedUpTo(descs, kwargs, i);
    && rest == kwargs - popped
    && translated.Keys == PhysOf(popped, active)
    && forall k :: k in translated ==>
         exists n :: n in popped && Phys(n, active) == k && translated[k] == kwargs[n]
  }

  lemma PoppedStep<V>(descs: Descriptors, kwargs: map<string, V>, i: nat)
    requires i < |descs|
    ensures descs[i].0 in kwargs && !descs[i].1.auto ==>
      PoppedUpTo(descs, kwargs, i + 1) == PoppedUpTo(descs, kwargs, i) + {descs[i].0}
    ensures !(descs[i].0 in kwargs && !descs[i].1.auto) ==>
      PoppedUpTo(descs, kwargs, i + 1) == PoppedUpTo(descs, kwargs, i)
  {
    var a := PoppedUpTo(descs, kwargs, i);
    var b := PoppedUpTo(descs, kwargs, i + 1);
    forall n | n in b ensures n in a || (n == descs[i].0 && descs[i].0 in kwargs && !descs[i].1.auto) {
      var j :| 0 <= j < i + 1 && descs[j].0 in kwargs && !descs[j].1.auto && descs[j].0 == n;
      if j < i { assert n in a; }
    }
  }

  /** A step that moves `descs[i]` keeps the invariant. */
  lemma PreparedMove<V>(
    descs: Descriptors, kwargs: map<string, V>, i: nat,
    translated: map<string, V>, rest: map<string, V>, active: Option<string>)
    requires i < |descs|
    requires PreparedUpTo(descs, kwargs, i, translated, rest, active)
    requires descs[i].0 in rest && !descs[i].1.auto
    ensures PreparedUpTo(descs, kwargs, i + 1,
      translated[Phys(descs[i].0, active) := rest[descs[i].0]], rest - {descs[i].0}, active)
  {
    var name := descs[i].0;
    var popped := PoppedUpTo(descs, kwargs, i);
    PoppedStep(descs, kwargs, i);
    var t' := translated[Phys(name, active) := rest[name]];
    var popped' := popped + {name};
    assert name in kwargs && name !in popped;
    assert rest[name] == kwargs[name];
    assert rest - {name} == kwargs - popped';
    assert t'.Keys == PhysOf(popped', active);
    forall k | k in t' ensures exists n :: n in popped' && Phys(n, active) == k && t'[k] == kwargs[n] {
      if k == Phys(name, active) {
        assert name in popped' && t'[k] == kwargs[name];
      } else {
        var n :| n in popped && Phys(n, active) == k && translated[k] == kwargs[n];
        assert n in popped';
      }
    }
  }

  /** A step that skips `descs[i]` keeps the invariant. */
  lemma PreparedSkip<V>(
    descs: Descriptors, kwargs: map<string, V>, i: nat,
    translated: map<string, V>, rest: map<string, V>, active: Option<string>)
    requires i < |descs|
    requires PreparedUpTo(descs, kwargs, i, translated, rest, active)
    requires !(descs[i].0 in rest && !descs[i].1.auto)
    ensures PreparedUpTo(descs, kwargs, i + 1, translated, rest, active)
  {
    PoppedStep(descs, kwargs, i);
    assert descs[i].0 in kwargs && !descs[i].1.auto ==> descs[i].0 in PoppedUpTo(descs, kwargs, i);
  }

  lemma {:induction false} PrepareFromInvariant<V>(
    descs: Descriptors, kwargs: map<string, V>, i: nat,
    translated: map<string, V>, rest: map<string, V>, active: Option<string>)
    requires i <= |descs|
    requires PreparedUpTo(descs, kwargs, i, translated, rest, active)
    ensures var (t, r) := PrepareFrom(descs, i, translated, rest, active);
      PreparedUpTo(descs, kwargs, |descs|, t, r, active)
    decreases |descs| - i
  {
    if i < |descs| {
      var (name, desc) := descs[i];
      if name in rest && !desc.auto {
        PreparedMove(descs, kwargs, i, translated, rest, active);
        PrepareFromInvariant(descs, kwargs, i + 1, translated[Phys(name, active) := rest[name]], rest - {name}, active);
      } else {
        PreparedSkip(descs, kwargs, i, translated, rest, active);
        PrepareFromInvariant(descs, kwargs, i + 1, translated, rest, active);
      }
    }
  }

  /**
   * `_prepare_data` moves exactly the keyword arguments that name a
   * registered descriptor without `auto`: they leave the rest map and
   * reappear in the translated map under their physical names, carrying
   * their values; every other keyword argument stays in the rest map as it
   * was.
   */
  lemma PrepareDataPartition<V>(descs: Descriptors, kwargs: map<string, V>, active: Option<string>)
    requires |descs| > 0
    ensures var p := PrepareData(descs, kwargs, active).value;
      var popped := Popped(descs, kwargs);
      && p.rest == kwargs - popped
      && p.translated.Keys == PhysOf(popped, active)
      && (forall k :: k in p.translated ==>
            exists n :: n in popped && Phys(n, active) == k && p.translated[k] == kwargs[n])
      && (forall n :: n in kwargs ==> (n in p.rest <==> n !in popped))
      && (forall n :: n in popped ==> Phys(n, active) in p.translated)
  {
    assert PoppedUpTo(descs, kwargs, 0) == {};
    assert kwargs - {} == kwargs;
    PrepareFromInvariant(descs, kwargs, 0, map[], kwargs, active);
  }

  /** The names `_prepare_data` moves: registered, present, and without `auto`. */
  lemma PoppedMembership<V>(descs: Descriptors, kwargs: map<string, V>, n: string)
    ensures n in Popped(descs, kwargs) <==>
      n in kwargs && exists i :: 0 <= i < |descs| && descs[i].0 == n && !descs[i].1.auto
  {
    if n in kwargs && exists i :: 0 <= i < |descs| && descs[i].0 == n && !descs[i].1.auto {
      var i :| 0 <= i < |descs| && descs[i].0 == n && !descs[i].1.auto;
      assert descs[i].0 in Popped(descs, kwargs);
    }
  }

  /** The single call `update` makes to the ORM proxy. */
  datatype ProxyCall<V> = ProxyCall(translated: map<string, V>, finalCall: Impl, rest: map<string, V>)

  /**
   * `TranslatedManagerWorkPiece.update` on an instance of a synthesised
   * manager class: prepare the data, then hand the translated map, the base
   * class's `update` and the remaining keyword arguments to the proxy once.
   */
  function Update<V>(cls: ManagerClass, descs: Descriptors, kwargs: map<string, V>, active: Option<string>)
    : (r: Result<ProxyCall<V>, ManagerError>)
    requires cls.TranslatedManager?
    ensures r.Err? <==> |descs| == 0
    ensures r.Ok? ==>
      && r.value.finalCall == Resolve(cls.base, UpdateName)
      && r.value.translated == PrepareData(descs, kwargs, active).value.translated
      && r.value.rest == PrepareData(descs, kwargs, active).value.rest
  {
    var p :- PrepareData(descs, kwargs, active);
    Ok(ProxyCall(p.translated, Resolve(cls.base, UpdateName), p.rest))
  }

  /**
   * On a manager built by `create_manager` over a Django manager class, the
   * final call is that class's own `update`, never the workpiece wrapper.
   */
  lemma UpdateCallsOriginal<V>(name: string, descs: Descriptors, kwargs: map<string, V>, active: Option<string>)
    requires |descs| > 0
    ensures var r := Update(CreateManager(DjangoManagerClass(name)), descs, kwargs, active);
      r.Ok? && r.value.finalCall == BaseImpl(name, UpdateName)
  {
  }
}

=== FILE: model_options.dfy ===
/**
 * `ExtendModelOptions`: the class-level registry of models that declare
 * translated fields, threaded through `Install` as an explicit value. A
 * model class is reduced to its attribute dictionary (where override markers
 * are found) and the parts of its `_meta` the registry reads and writes.
 */
module ModelOptions {
  import opened Results
  import Dicts
  import ExtendFields
  import ManagerBuilder

  /** A subclass of `ExtendMetaBase` declared in a model body. */
  datatype Marker = Marker(overrideQuery: bool)

  /** A value in the model class's `__dict__`. */
  datatype ClassAttr = MarkerClass(marker: Marker) | OtherAttr

  /** The callable passed as `orm_proxy`: the library's own `proxy_from_orm`. */
  datatype ProxyRef = ProxyFromOrmRef

  datatype Manager = Manager(name: string, cls: ManagerBuilder.ManagerClass, ormProxy: Option<ProxyRef>)

  const ObjectsName := "objects"

  /** The parts of a model's `_meta` that the registry touches. */
  datatype Opts = Opts(
    propertyNames: set<string>,
    extendDescriptor: Option<ManagerBuilder.Descriptors>,
    localManagers: seq<Manager>,
    managersMap: map<string, Manager>)

  datatype ModelClass = ModelClass(id: string, attrs: seq<(string, ClassAttr)>, meta: Opts)

  /** One value of `models_data`; its `opts` is the model's own `_meta`, carried by `ModelClass`. */
  datatype Entry = Entry(
    extendField: string,
    extendObj: ExtendFields.Descriptor,
    extendMeta: Option<(string, Marker)>,
    ormProxy: Option<ProxyRef>)

  /** `models_data`, keyed by model. */
  type Registry = map<string, Entry>

  datatype InstallError =
    | MultipleMarkers(count: nat)   // ValueError: more than one ExtendMeta class
    | MissingOrmProxy               // ValueError: override requested without an ORM proxy

  /** The state after `install`; an error leaves behind whatever was already written. */
  datatype Installed = Installed(registry: Registry, meta: Opts, error: Option<InstallError>)

  // ---------------------------------------------------------------------------
  // `_find_extend_meta`.

  /** The override markers of a class body, in declaration order. */
  function Markers(attrs: seq<(string, ClassAttr)>): seq<(string, Marker)> {
    if |attrs| == 0 then []
    else (if attrs[0].1.MarkerClass? then [(attrs[0].0, attrs[0].1.marker)] else []) + Markers(attrs[1..])
  }

  /** The scan of `_find_extend_meta`: count the markers, remembering the first. */
  function ScanMarkers(attrs: seq<(string, ClassAttr)>, i: nat, count: nat, first: Option<(string, Marker)>)
    : (r: (nat, Option<(string, Marker)>))
    requires i <= |attrs|
    requires count == 0 <==> first.None?
    ensures r.0 == count + |Markers(attrs[i..])|
    ensures r.1 == if count > 0 then first
                   else if |Markers(attrs[i..])| > 0 then Some(Markers(attrs[i..])[0])
                   else None
    decreases |attrs| - i
  {
    if i == |attrs| then (count, first)
    else
      assert attrs[i..][1..] == attrs[i + 1..];
      match attrs[i].1
      case MarkerClass(m) =>
        ScanMarkers(attrs, i + 1, count + 1, if count == 0 then Some((attrs[i].0, m)) else first)
      case OtherAttr =>
        ScanMarkers(attrs, i + 1, count, first)
  }

  /** `_find_extend_meta`: no marker, the only marker, or an error when there are several. */
  function FindExtendMeta(attrs: seq<(string, ClassAttr)>): (r: Result<Option<(string, Marker)>, InstallError>)
    ensures |Markers(attrs)| == 0 <==> r == Ok(None)
    ensures |Markers(attrs)| == 1 <==> |Markers(attrs)| > 0 && r == Ok(Some(Markers(attrs)[0]))
    ensures |Markers(attrs)| > 1 <==> r == Err(MultipleMarkers(|Markers(attrs)|))
  {
    assert attrs[0..] == attrs;
    var (count, first) := ScanMarkers(attrs, 0, 0, None);
    if count == 0 then Ok(None)
    else if count > 1 then Err(MultipleMarkers(count))
    else Ok(first)
  }

  // ---------------------------------------------------------------------------
  // `_create_manager`.

  /** `[m for m in local_managers if m.name != 'objects']`. */
  function WithoutObjects(managers: seq<Manager>): (r: seq<Manager>)
    ensures forall m :: m in r <==> m in managers && m.name != ObjectsName
    ensures |r| <= |managers|
  {
    if |managers| == 0 then []
    else (if managers[0].name != ObjectsName then [managers[0]] else []) + WithoutObjects(managers[1..])
  }

  /** Filtering distributes over concatenation, so the kept managers stay in their order. */
  lemma {:induction false} WithoutObjectsConcat(a: seq<Manager>, b: seq<Manager>)
    ensures WithoutObjects(a + b) == WithoutObjects(a) + WithoutObjects(b)
  {
    if |a| == 0 {
      assert a + b == b;
    } else {
      assert (a + b)[1..] == a[1..] + b;
      WithoutObjectsConcat(a[1..], b);
    }
  }

  /** The class the new manager is built over: the current `objects` manager's, else plain `Manager`. */
  function SourceManagerClass(opts: Opts): ManagerBuilder.ManagerClass {
    if ObjectsName in opts.managersMap then opts.managersMap[ObjectsName].cls
    else ManagerBuilder.DjangoManagerClass("Manager")
  }

  /**
   * The local managers that survive `_create_manager`: all of them, or only
   * those not called `objects` when the model already has an `objects` manager.
   */
  function KeptManagers(opts: Opts): (r: seq<Manager>)
    ensures ObjectsName in opts.managersMap ==> forall i :: 0 <= i < |r| ==> r[i].name != ObjectsName
  {
    if ObjectsName in opts.managersMap then
      var kept := WithoutObjects(opts.localManagers);
      assert forall i :: 0 <= i < |kept| ==> kept[i] in kept;
      kept
    else opts.localManagers
  }

  /**
   * `_create_manager`: requires a proxy; resets the descriptor table and
   * installs a synthesised `objects` manager, dropping the local managers
   * called `objects` when the model already had one.
   */
  function CreateManagerOpts(opts: Opts, proxy: Option<ProxyRef>): (r: Result<Opts, InstallError>)
    ensures r.Err? <==> proxy.None?
    ensures r.Err? ==> r.error == MissingOrmProxy
    ensures r.Ok? ==> r.value.extendDescriptor == Some([]) && r.value.propertyNames == opts.propertyNames
    ensures r.Ok? ==> (
      && |r.value.localManagers| > 0
      && r.value.localManagers[|r.value.localManagers| - 1]
         == Manager(ObjectsName, ManagerBuilder.CreateManager(SourceManagerClass(opts)), proxy))
    ensures r.Ok? && ObjectsName in opts.managersMap ==>
      forall i :: 0 <= i < |r.value.localManagers| - 1 ==> r.value.localManagers[i].name != ObjectsName
    ensures r.Ok? ==> (
      && |r.value.localManagers| > 0
      && r.value.localManagers[..|r.value.localManagers| - 1] == KeptManagers(opts))
    ensures r.Ok? ==> r.value.managersMap == opts.managersMap
  {
    if proxy.None? then Err(MissingOrmProxy)
    else
      var kept := KeptManagers(opts);
      var m := Manager(ObjectsName, ManagerBuilder.CreateManager(SourceManagerClass(opts)), proxy);
      var ms := kept + [m];
      assert ms[..|kept|] == kept;
      assert forall i :: 0 <= i < |kept| ==> ms[i] == kept[i];
      Ok(opts.(extendDescriptor := Some([]), localManagers := ms))
  }

  // ---------------------------------------------------------------------------
  // `install`.

  /** `_set_descriptor_to_django_model_meta` and the descriptor-table write, when the table exists. */
  function RecordDescriptor(opts: Opts, field: string, desc: ExtendFields.Descriptor): (r: Opts)
    ensures opts.extendDescriptor.None? ==> r == opts
    ensures opts.extendDescriptor.Some? ==>
      && r.extendDescriptor.Some?
      && Dicts.Lookup(r.extendDescriptor.value, field) == Some(desc)
      && (forall other :: other != field ==>
            Dicts.Lookup(r.extendDescriptor.value, other) == Dicts.Lookup(opts.extendDescriptor.value, other))
      && r.propertyNames == opts.propertyNames + {field}
    ensures r.localManagers == opts.localManagers && r.managersMap == opts.managersMap
  {
    match opts.extendDescriptor
    case None => opts
    case Some(table) =>
      Dicts.PutLookups(table, field, desc);
      opts.(propertyNames := opts.propertyNames + {field},
            extendDescriptor := Some(Dicts.Put(table, field, desc)))
  }

  /**
   * `install`: a model other than the registered one resets the registry;
   * the first install of a model records its entry and, when its marker asks
   * for it, builds the manager; a later install only replaces the field and
   * descriptor. Either way the field then joins the descriptor table, if any.
   */
  function Install(
    reg: Registry, model: ModelClass, field: string, desc: ExtendFields.Descriptor, proxy: Option<ProxyRef>)
    : (o: Installed)
    ensures o.registry.Keys <= reg.Keys + {model.id}
    ensures model.id !in reg ==> o.registry.Keys <= {model.id}
    ensures model.id in reg ==> o.error.None?
    ensures o.error.Some? ==>
      || (o.error.value.MultipleMarkers? && |Markers(model.attrs)| > 1 && o.registry == map[])
      || (o.error.value == MissingOrmProxy && proxy.None? && o.meta == model.meta)
    ensures o.error.None? ==> (
      && model.id in o.registry
      && o.registry[model.id].extendField == field
      && o.registry[model.id].extendObj == desc)
    ensures o.error.None? && o.meta.extendDescriptor.Some? ==> Dicts.Lookup(o.meta.extendDescriptor.value, field) == Some(desc)
  {
    var reg0 := if model.id !in reg && |reg| > 0 then map[] else reg;
    if |reg0| == 0 then
      match FindExtendMeta(model.attrs)
      case Err(e) => Installed(reg0, model.meta, Some(e))
      case Ok(meta) =>
        var reg1 := reg0[model.id := Entry(field, desc, meta, proxy)];
        if meta.Some? && meta.value.1.overrideQuery then
          match CreateManagerOpts(model.meta, proxy)
          case Err(e) => Installed(reg1, model.meta, Some(e))
          case Ok(opts) => Installed(reg1, RecordDescriptor(opts, field, desc), None)
        else
          Installed(reg1, RecordDescriptor(model.meta, field, desc), None)
    else
      var reg1 := reg0[model.id := reg0[model.id].(extendField := field, extendObj := desc)];
      Installed(reg1, RecordDescriptor(model.meta, field, desc), None)
  }

  /** The first install of a model requests the manager override. */
  predicate RequestsOverride(reg: Registry, model: ModelClass) {
    && model.id !in reg
    && FindExtendMeta(model.attrs).Ok?
    && FindExtendMeta(model.attrs).value.Some?
    && FindExtendMeta(model.attrs).value.value.1.overrideQuery
  }

  lemma SingletonKeys(reg: Registry, id: string)
    requires |reg| <= 1 && id in reg
    ensures reg.Keys == {id}
  {
    var rest := reg.Keys - {id};
    assert |reg.Keys| == |rest| + 1;
    assert rest == {};
  }

  /**
   * The registry holds one model at a time: installing a model leaves its
   * key alone in the registry (a different model's entry is discarded),
   * except when a model with several markers is rejected before any entry
   * is written.
   */
  lemma InstallRegistryKeys(
    reg: Registry, model: ModelClass, field: string, desc: ExtendFields.Descriptor, proxy: Option<ProxyRef>)
    requires |reg| <= 1
    ensures var o := Install(reg, model, field, desc, proxy);
      && |o.registry| <= 1
      && (o.registry.Keys == {model.id} || (o.registry == map[] && o.error.Some? && o.error.value.MultipleMarkers?))
      && (o.error.None? ==> o.registry.Keys == {model.id})
  {
    if model.id in reg {
      SingletonKeys(reg, model.id);
    }
  }

  /**
   * Re-installing a model already in the registry only replaces the field
   * name and descriptor of its entry; the marker and the proxy recorded on
   * the first install stay, and no manager is rebuilt.
   */
  lemma ReinstallUpdatesOnly(
    reg: Registry, model: ModelClass, field: string, desc: ExtendFields.Descriptor, proxy: Option<ProxyRef>)
    requires model.id in reg
    ensures var o := Install(reg, model, field, desc, proxy);
      && o.error.None?
      && model.id in o.registry
      && o.registry[model.id] == reg[model.id].(extendField := field, extendObj := desc)
      && o.registry[model.id].extendMeta == reg[model.id].extendMeta
      && o.registry[model.id].ormProxy == reg[model.id].ormProxy
      && o.meta.localManagers == model.meta.localManagers
      && o.meta == RecordDescriptor(model.meta, field, desc)
  {
  }

  /**
   * The manager is overridden only on a model's first install and only when
   * its marker asks for it: then a missing proxy is an error that leaves
   * `_meta` untouched, and a given proxy yields a fresh descriptor table
   * holding just this field and a synthesised `objects` manager.
   */
  lemma ManagerOverrideConditions(
    reg: Registry, model: ModelClass, field: string, desc: ExtendFields.Descriptor, proxy: Option<ProxyRef>)
    ensures var o := Install(reg, model, field, desc, proxy);
      !RequestsOverride(reg, model) ==>
        && o.meta.localManagers == model.meta.localManagers
        && o.meta.managersMap == model.meta.managersMap
        && (o.meta.extendDescriptor.Some? <==> model.meta.extendDescriptor.Some?)
    ensures var o := Install(reg, model, field, desc, proxy);
      RequestsOverride(reg, model) && proxy.None? ==>
        o.error == Some(MissingOrmProxy) && o.meta == model.meta && model.id in o.registry
    ensures var o := Install(reg, model, field, desc, proxy);
      RequestsOverride(reg, model) && proxy.Some? ==>
        && o.error.None?
        && o.meta.extendDescriptor == Some([(field, desc)])
        && o.meta.propertyNames == model.meta.propertyNames + {field}
        && |o.meta.localManagers| > 0
        && o.meta.localManagers[|o.meta.localManagers| - 1]
           == Manager(ObjectsName, ManagerBuilder.CreateManager(SourceManagerClass(model.meta)), proxy)
        && o.meta.localManagers[..|o.meta.localManagers| - 1] == KeptManagers(model.meta)
        && o.meta.managersMap == model.meta.managersMap
  {
    var o := Install(reg, model, field, desc, proxy);
    if RequestsOverride(reg, model) && proxy.Some? {
      var opts := CreateManagerOpts(model.meta, proxy).value;
      assert Dicts.Put([], field, desc) == [(field, desc)];
      assert o.meta.localManagers == opts.localManagers;
    }
  }

  /**
   * Where `_meta` has a descriptor table, an install adds the field to it
   * without touching the other entries, and `_property_names` gains exactly
   * the field's name.
   */
  lemma DescriptorAccumulates(
    reg: Registry, model: ModelClass, field: string, desc: ExtendFields.Descriptor, proxy: Option<ProxyRef>)
    requires model.meta.extendDescriptor.Some?
    requires !RequestsOverride(reg, model)
    requires FindExtendMeta(model.attrs).Ok?
    ensures var o := Install(reg, model, field, desc, proxy);
      var before := model.meta.extendDescriptor.value;
      && o.error.None?
      && o.meta.extendDescriptor.Some?
      && Dicts.Lookup(o.meta.extendDescriptor.value, field) == Some(desc)
      && (forall other :: other != field ==>
            Dicts.Lookup(o.meta.extendDescriptor.value, other) == Dicts.Lookup(before, other))
      && Dicts.Keys(o.meta.extendDescriptor.value) == Dicts.Keys(before) + {field}
      && o.meta.propertyNames == model.meta.propertyNames + {field}
  {
    Dicts.PutLookups(model.meta.extendDescriptor.value, field, desc);
    Dicts.PutShape(model.meta.extendDescriptor.value, field, desc);
  }

  // ---------------------------------------------------------------------------
  // Declaring a whole model.

  /** Installs a model's translated fields one after another, stopping at the first error. */
  function InstallAll(reg: Registry, model: ModelClass, fields: ManagerBuilder.Descriptors, proxy: Option<ProxyRef>)
    : (o: Installed)
    ensures o.registry.Keys <= reg.Keys + {model.id}
    ensures |fields| > 0 && model.id !in reg ==> o.registry.Keys <= {model.id}
    ensures |fields| > 0 && o.error.None? ==> model.id in o.registry
    ensures o.error.Some? ==>
      || (o.error.value.MultipleMarkers? && |Markers(model.attrs)| > 1)
      || (o.error.value == MissingOrmProxy && proxy.None?)
    decreases |fields|
  {
    if |fields| == 0 then Installed(reg, model.meta, None)
    else
      var o := Install(reg, model, fields[0].0, fields[0].1, proxy);
      if o.error.Some? then o
      else InstallAll(o.registry, model.(meta := o.meta), fields[1..], proxy)
  }

  lemma {:induction false} InstallAllLater(
    reg: Registry, model: ModelClass, fields: ManagerBuilder.Descriptors, proxy: Option<ProxyRef>)
    requires model.id in reg
    requires model.meta.extendDescriptor.Some?
    ensures var o := InstallAll(reg, model, fields, proxy);
      && o.error.None?
      && o.meta.extendDescriptor.Some?
      && Dicts.Keys(o.meta.extendDescriptor.value)
         == Dicts.Keys(model.meta.extendDescriptor.value) + Dicts.Keys(fields)
      && o.meta.propertyNames == model.meta.propertyNames + Dicts.Keys(fields)
      && model.id in o.registry
    decreases |fields|
  {
    if |fields| > 0 {
      var o := Install(reg, model, fields[0].0, fields[0].1, proxy);
      Dicts.PutShape(model.meta.extendDescriptor.value, fields[0].0, fields[0].1);
      InstallAllLater(o.registry, model.(meta := o.meta), fields[1..], proxy);
      Dicts.KeysCons(fields);
    }
  }

  /** After a successful install, the rest of the declaration continues from the new state. */
  lemma InstallAllStep(reg: Registry, model: ModelClass, fields: ManagerBuilder.Descriptors, proxy: Option<ProxyRef>)
    requires |fields| > 0
    requires Install(reg, model, fields[0].0, fields[0].1, proxy).error.None?
    ensures var o := Install(reg, model, fields[0].0, fields[0].1, proxy);
      InstallAll(reg, model, fields, proxy) == InstallAll(o.registry, model.(meta := o.meta), fields[1..], proxy)
  {
  }

  /** The first install of an overriding model with a proxy: one entry, a one-field table. */
  lemma FirstOverridingInstall(reg: Registry, model: ModelClass, field: string, desc: ExtendFields.Descriptor, proxy: ProxyRef)
    requires |reg| <= 1
    requires RequestsOverride(reg, model)
    ensures var o := Install(reg, model, field, desc, Some(proxy));
      && o.error.None?
      && o.registry.Keys == {model.id}
      && o.meta.extendDescriptor.Some?
      && Dicts.Keys(o.meta.extendDescriptor.value) == {field}
      && o.meta.propertyNames == model.meta.propertyNames + {field}
  {
    ManagerOverrideConditions(reg, model, field, desc, Some(proxy));
    InstallRegistryKeys(reg, model, field, desc, Some(proxy));
    Dicts.KeysCons([(field, desc)]);
    assert [(field, desc)][1..] == [];
  }

  /**
   * Declaring a model whose marker requests the override, with a proxy and
   * at least one field: afterwards the registry holds only that model, and
   * every declared field is in the descriptor table and in `_property_names`.
   */
  lemma DeclareOverridingModel(
    reg: Registry, model: ModelClass, fields: ManagerBuilder.Descriptors, proxy: ProxyRef)
    requires |reg| <= 1
    requires RequestsOverride(reg, model)
    requires |fields| > 0
    ensures var o := InstallAll(reg, model, fields, Some(proxy));
      && o.error.None?
      && o.registry.Keys == {model.id}
      && o.meta.extendDescriptor.Some?
      && Dicts.Keys(o.meta.extendDescriptor.value) == Dicts.Keys(fields)
      && o.meta.propertyNames == model.meta.propertyNames + Dicts.Keys(fields)
  {
    var o1 := Install(reg, model, fields[0].0, fields[0].1, Some(proxy));
    FirstOverridingInstall(reg, model, fields[0].0, fields[0].1, proxy);
    InstallAllStep(reg, model, fields, Some(proxy));
    DeclareRest(o1.registry, model.(meta := o1.meta), fields, Some(proxy), model.meta.propertyNames);
  }

  /** The fields after the first one, installed into the state the first install left behind. */
  lemma DeclareRest(
    reg: Registry, model: ModelClass, fields: ManagerBuilder.Descriptors, proxy: Option<ProxyRef>,
    namesBefore: set<string>)
    requires |fields| > 0
    requires reg.Keys == {model.id}
    requires model.meta.extendDescriptor.Some?
    requires Dicts.Keys(model.meta.extendDescriptor.value) == {fields[0].0}
    requires model.meta.propertyNames == namesBefore + {fields[0].0}
    ensures var o := InstallAll(reg, model, fields[1..], proxy);
      && o.error.None?
      && o.registry.Keys == {model.id}
      && o.meta.extendDescriptor.Some?
      && Dicts.Keys(o.meta.extendDescriptor.value) == Dicts.Keys(fields)
      && o.meta.propertyNames == namesBefore + Dicts.Keys(fields)
  {
    InstallAllLater(reg, model, fields[1..], proxy);
    InstallAllKeepsKeys(reg, model, fields[1..], proxy);
    Dicts.KeysCons(fields);
  }

  lemma {:induction false} InstallAllKeepsKeys(
    reg: Registry, model: ModelClass, fields: ManagerBuilder.Descriptors, proxy: Option<ProxyRef>)
    requires reg.Keys == {model.id}
    ensures InstallAll(reg, model, fields, proxy).registry.Keys == {model.id}
    decreases |fields|
  {
    if |fields| > 0 {
      var o := Install(reg, model, fields[0].0, fields[0].1, proxy);
      InstallAllKeepsKeys(o.registry, model.(meta := o.meta), fields[1..], proxy);
    }
  }
}

=== FILE: naming.dfy ===
/**
 * Attribute naming: the physical column that stores one language of a
 * translated field is `"{name}_{language}"`, lower-cased, with every run of
 * characters outside `[a-z0-9_]` replaced by a single underscore.
 */
module Naming {
  import opened Results

  /** The character class `[a-z0-9_]` that physical names are built from. */
  predicate IsAllowed(c: char) {
    ('a' <= c <= 'z') || ('0' <= c <= '9') || c == '_'
  }

  predicate AllAllowed(s: string) {
    forall i :: 0 <= i < |s| ==> IsAllowed(s[i])
  }

  /**
   * Python's `str.lower()` on one character, exact wherever the result can
   * contain a character of `[a-z0-9_]`: ASCII capitals, KELVIN SIGN (lower-cased
   * to `k`) and LATIN CAPITAL LETTER I WITH DOT ABOVE (lower-cased to `i`
   * followed by COMBINING DOT ABOVE). Every other character is kept, which
   * differs from Python only on characters that stay outside `[a-z0-9_]`.
   */
  function LowerChar(c: char): string {
    if 'A' <= c <= 'Z' then [(c as int + 32) as char]
    else if c == '\U{212A}' then "k"
    else if c == '\U{130}' then "i\U{307}"
    else [c]
  }

  function Lower(s: string): string {
    if |s| == 0 then "" else LowerChar(s[0]) + Lower(s[1..])
  }

  /** Drops the run of disallowed characters at the front of `s`. */
  function DropRun(s: string): (r: string)
    ensures |r| <= |s|
    ensures r == s[|s| - |r|..]
    ensures r == [] || IsAllowed(r[0])
  {
    if |s| == 0 || IsAllowed(s[0]) then s else DropRun(s[1..])
  }

  /** `re.sub(r"[^a-z0-9_]+", "_", s)`: each maximal run of disallowed characters becomes one `_`. */
  function Collapse(s: string): (r: string)
    ensures AllAllowed(r)
    decreases |s|
  {
    if |s| == 0 then ""
    else if IsAllowed(s[0]) then [s[0]] + Collapse(s[1..])
    else "_" + Collapse(DropRun(s[1..]))
  }

  function Normalize(s: string): string {
    Collapse(Lower(s))
  }

  /** `language_code or get_language()`, formatted by an f-string: a missing language prints as `None`. */
  function ResolveLanguage(code: Option<string>, active: Option<string>): string {
    if code.Some? && code.value != "" then code.value
    else match active
      case Some(a) => a
      case None => "None"
  }

  /** `to_attribute(name, language_code)` with the active language passed explicitly. */
  function ToAttribute(name: string, code: Option<string>, active: Option<string>): (r: string)
    ensures AllAllowed(r)
  {
    Normalize(name + "_" + ResolveLanguage(code, active))
  }

  // ---------------------------------------------------------------------------
  // A second, streaming definition of the substitution: a left-to-right scan
  // that remembers whether it is inside a run of disallowed characters.

  function Scan(s: string, inRun: bool): string {
    if |s| == 0 then ""
    else if IsAllowed(s[0]) then [s[0]] + Scan(s[1..], false)
    else if inRun then Scan(s[1..], true)
    else "_" + Scan(s[1..], true)
  }

  lemma {:induction false} ScanSkipsRun(s: string)
    ensures Scan(s, true) == Scan(DropRun(s), true)
    decreases |s|
  {
    if |s| > 0 && !IsAllowed(s[0]) {
      ScanSkipsRun(s[1..]);
    }
  }

  /** The run-based substitution and the streaming scan agree on every string. */
  lemma {:induction false} CollapseIsScan(s: string)
    ensures Collapse(s) == Scan(s, false)
    decreases |s|
  {
    if |s| == 0 {
    } else if IsAllowed(s[0]) {
      CollapseIsScan(s[1..]);
    } else {
      var t := DropRun(s[1..]);
      ScanSkipsRun(s[1..]);
      CollapseIsScan(t);
      assert Scan(t, true) == Scan(t, false) by {
        if |t| > 0 { assert IsAllowed(t[0]); }
      }
    }
  }

  // ---------------------------------------------------------------------------
  // Properties of the normalisation.

  lemma {:induction false} LowerKeepsAllowed(s: string)
    requires AllAllowed(s)
    ensures Lower(s) == s
  {
    if |s| > 0 {
      assert IsAllowed(s[0]);
      LowerKeepsAllowed(s[1..]);
      assert s == [s[0]] + s[1..];
    }
  }

  lemma {:induction false} CollapseKeepsAllowed(s: string)
    requires AllAllowed(s)
    ensures Collapse(s) == s
  {
    if |s| > 0 {
      assert IsAllowed(s[0]);
      CollapseKeepsAllowed(s[1..]);
      assert s == [s[0]] + s[1..];
    }
  }

  /** A string made of `[a-z0-9_]` only is its own normal form. */
  lemma NormalizeKeepsAllowed(s: string)
    requires AllAllowed(s)
    ensures Normalize(s) == s
  {
    LowerKeepsAllowed(s);
    CollapseKeepsAllowed(s);
  }

  /** Normalising twice is normalising once. */
  lemma NormalizeIdempotent(s: string)
    ensures Normalize(Normalize(s)) == Normalize(s)
  {
    NormalizeKeepsAllowed(Normalize(s));
  }

  lemma AllowedConcat(a: string, b: string)
    requires AllAllowed(a) && AllAllowed(b)
    ensures AllAllowed(a + b)
  {
    assert forall i :: 0 <= i < |a + b| ==> (a + b)[i] == (if i < |a| then a[i] else b[i - |a|]);
  }

  /** Already-normal names and languages are joined verbatim with one `_`. */
  lemma ToAttributeVerbatim(name: string, lang: string, active: Option<string>)
    requires AllAllowed(name) && AllAllowed(lang) && lang != ""
    ensures ToAttribute(name, Some(lang), active) == name + "_" + lang
  {
    AllowedConcat(name, "_");
    AllowedConcat(name + "_", lang);
    NormalizeKeepsAllowed(name + "_" + lang);
  }

  /** Dropping a run stops at the first allowed character, so an allowed tail is kept whole. */
  lemma {:induction false} DropRunAppend(x: string, t: string)
    requires t == [] || IsAllowed(t[0])
    ensures DropRun(x + t) == DropRun(x) + t
  {
    if |x| == 0 {
      assert x + t == t;
    } else if !IsAllowed(x[0]) {
      assert (x + t)[0] == x[0];
      assert (x + t)[1..] == x[1..] + t;
      DropRunAppend(x[1..], t);
    }
  }

  /** The substitution leaves an allowed tail untouched: it never merges across it. */
  lemma {:induction false} CollapseAllowedSuffix(x: string, t: string)
    requires AllAllowed(t)
    ensures Collapse(x + t) == Collapse(x) + t
    decreases |x|
  {
    if |x| == 0 {
      assert x + t == t;
      CollapseKeepsAllowed(t);
    } else if IsAllowed(x[0]) {
      CollapseAllowedSuffixStep(x, t);
    } else {
      CollapseRunSuffixStep(x, t);
    }
  }

  lemma {:induction false} CollapseAllowedSuffixStep(x: string, t: string)
    requires AllAllowed(t) && |x| > 0 && IsAllowed(x[0])
    ensures Collapse(x + t) == Collapse(x) + t
    decreases |x|, 0
  {
    var s := x + t;
    assert s[0] == x[0] && s[1..] == x[1..] + t;
    assert Collapse(s) == [x[0]] + Collapse(x[1..] + t);
    CollapseAllowedSuffix(x[1..], t);
    assert Collapse(x) == [x[0]] + Collapse(x[1..]);
  }

  lemma {:induction false} CollapseRunSuffixStep(x: string, t: string)
    requires AllAllowed(t) && |x| > 0 && !IsAllowed(x[0])
    ensures Collapse(x + t) == Collapse(x) + t
    decreases |x|, 0
  {
    var d := DropRun(x[1..]);
    assert (x + t)[1..] == x[1..] + t;
    CollapseRunHead(x + t);
    CollapseRunHead(x);
    assert t == [] || IsAllowed(t[0]);
    DropRunAppend(x[1..], t);
    CollapseAllowedSuffix(d, t);
  }

  lemma CollapseRunHead(s: string)
    requires |s| > 0 && !IsAllowed(s[0])
    ensures Collapse(s) == "_" + Collapse(DropRun(s[1..]))
  {
  }

  /**
   * For any field name, a non-empty language drawn from `[a-z0-9_]` is
   * appended verbatim to the normalised name.
   */
  lemma ToAttributeShape(name: string, lang: string, active: Option<string>)
    requires AllAllowed(lang) && lang != ""
    ensures ToAttribute(name, Some(lang), active) == Normalize(name) + "_" + lang
  {
    AllowedConcat("_", lang);
    LowerKeepsAllowed("_" + lang);
    assert name + "_" + lang == name + ("_" + lang);
    LowerAppend(name, "_" + lang);
    CollapseAllowedSuffix(Lower(name), "_" + lang);
    assert Collapse(Lower(name)) + ("_" + lang) == Normalize(name) + "_" + lang;
  }

  /**
   * For a fixed name (any name at all), languages drawn from `[a-z0-9_]` give
   * distinct physical names exactly when they are distinct.
   */
  lemma ToAttributeInjective(name: string, a: string, b: string, active: Option<string>)
    requires AllAllowed(a) && AllAllowed(b) && a != "" && b != ""
    ensures ToAttribute(name, Some(a), active) == ToAttribute(name, Some(b), active) <==> a == b
  {
    ToAttributeShape(name, a, active);
    ToAttributeShape(name, b, active);
    var p := Normalize(name) + "_";
    if p + a == p + b {
      assert a == (p + a)[|p|..];
      assert b == (p + b)[|p|..];
    }
  }

  lemma {:induction false} CollapseAllowedPrefix(a: string, t: string)
    requires AllAllowed(a)
    ensures Collapse(a + t) == a + Collapse(t)
  {
    if |a| > 0 {
      var s := a + t;
      assert s[0] == a[0] && IsAllowed(s[0]);
      assert s[1..] == a[1..] + t;
      assert Collapse(s) == [a[0]] + Collapse(a[1..] + t);
      assert AllAllowed(a[1..]) by {
        forall i | 0 <= i < |a[1..]| ensures IsAllowed(a[1..][i]) {
          assert a[1..][i] == a[i + 1];
        }
      }
      CollapseAllowedPrefix(a[1..], t);
      assert [a[0]] + (a[1..] + Collapse(t)) == a + Collapse(t);
    } else {
      assert a + t == t;
    }
  }

  lemma LowerDashed(head: string, b: string)
    requires AllAllowed(head) && AllAllowed(b)
    ensures Lower(head + ("-" + b)) == head + ("-" + b)
  {
    LowerAppend(head, "-" + b);
    LowerAppend("-", b);
    LowerKeepsAllowed(head);
    LowerKeepsAllowed(b);
  }

  lemma CollapseDashed(head: string, b: string)
    requires AllAllowed(head) && AllAllowed(b)
    ensures Collapse(head + ("-" + b)) == head + ("_" + b)
  {
    CollapseAllowedPrefix(head, "-" + b);
    assert ("-" + b)[1..] == b;
    assert DropRun(b) == b;
    CollapseKeepsAllowed(b);
  }

  /**
   * Languages that differ only in a `-` versus `_` separator collapse to the
   * same column, e.g. `en-us` and `en_us`.
   */
  lemma SeparatorsCollide(name: string, a: string, b: string, active: Option<string>)
    requires AllAllowed(name) && AllAllowed(a) && AllAllowed(b)
    ensures ToAttribute(name, Some(a + "-" + b), active) == ToAttribute(name, Some(a + "_" + b), active)
  {
    var head := name + "_" + a;
    assert AllAllowed(head) by {
      AllowedConcat(name, "_");
      AllowedConcat(name + "_", a);
    }
    var dashed := head + ("-" + b);
    var joined := head + ("_" + b);
    assert name + "_" + (a + "-" + b) == dashed;
    assert name + "_" + (a + "_" + b) == joined;
    assert Normalize(dashed) == joined by {
      LowerDashed(head, b);
      CollapseDashed(head, b);
    }
    assert Normalize(joined) == joined by {
      AllowedConcat("_", b);
      AllowedConcat(head, "_" + b);
      NormalizeKeepsAllowed(joined);
    }
  }

  /**
   * An explicit, non-empty language code wins over the active language; with
   * no code (or an empty one) the active language is used.
   */
  lemma ExplicitCodeWins(name: string, code: string, active1: Option<string>, active2: Option<string>)
    ensures code != "" ==>
      ToAttribute(name, Some(code), active1) == ToAttribute(name, Some(code), active2)
    ensures forall a :: active1 == Some(a) && a != "" ==>
      ToAttribute(name, None, active1) == ToAttribute(name, Some(a), active2)
    ensures ToAttribute(name, Some(""), active1) == ToAttribute(name, None, active1)
  {
  }

  /** With no active language and no code the f-string prints `None`, giving `<name>_none`. */
  lemma NoLanguageGivesNone(name: string)
    requires AllAllowed(name)
    ensures ToAttribute(name, None, None) == name + "_none"
  {
    AllowedConcat(name, "_");
    LowerAppend(name + "_", "None");
    LowerKeepsAllowed(name + "_");
    LowerAppend("N", "one");
    LowerKeepsAllowed("one");
    assert Lower("N") == "n";
    assert "N" + "one" == "None";
    assert Lower("None") == "none";
    assert name + "_" + "None" == (name + "_") + "None";
    AllowedConcat(name + "_", "none");
    CollapseKeepsAllowed(name + "_" + "none");
  }

  lemma {:induction false} LowerAppend(a: string, b: string)
    ensures Lower(a + b) == Lower(a) + Lower(b)
  {
    if |a| > 0 {
      assert (a + b)[1..] == a[1..] + b;
      LowerAppend(a[1..], b);
    } else {
      assert a + b == b;
    }
  }
}

=== FILE: results.dfy ===
/** Failure-compatible wrappers shared by every module of the model. */
module Results {

  /** A value that may be absent; Python's `None` becomes `None`. */
  datatype Option<+T> = None | Some(value: T)

  /** The outcome of an operation that raises in the source: `Err` carries the exception kind. */
  datatype Result<+T, +E> = Ok(value: T) | Err(error: E) {

    predicate IsFailure() {
      Err?
    }

    function PropagateFailure<U>(): Result<U, E>
      requires Err?
    {
      Err(error)
    }

    function Extract(): T
      requires Ok?
    {
      value
    }
  }
}

=== FILE: translated_fields.dfy ===
/**
 * `TranslatedField`: an extend field whose suffixes are language codes. It
 * reads and writes the column of the active language through per-instance
 * accessors, joins in the model registry when declared, and supplies the
 * proxy through which the synthesised manager's `update` reaches the ORM.
 * The active language (`get_language()`) is a parameter; a model instance
 * is its attribute dictionary.
 */
module TranslatedFields {
  import opened Results
  import Naming
  import ExtendFields
  import ManagerBuilder
  import ModelOptions

  // ---------------------------------------------------------------------------
  // Construction.

  /** The suffix list: the given one when non-empty, else the codes of `settings.LANGUAGES`. */
  function DefaultSuffixes(attrSuffix: Option<seq<string>>, languages: seq<(string, string)>): (r: seq<string>)
    ensures attrSuffix.Some? && |attrSuffix.value| > 0 ==> r == attrSuffix.value
    ensures !(attrSuffix.Some? && |attrSuffix.value| > 0) ==>
      |r| == |languages| && forall i :: 0 <= i < |r| ==> r[i] == languages[i].0
  {
    if attrSuffix.Some? && |attrSuffix.value| > 0 then attrSuffix.value
    else seq(|languages|, i requires 0 <= i < |languages| => languages[i].0)
  }

  /** `TranslatedField.__init__`: always has a suffix list, so construction cannot fail. */
  function NewTranslatedField(
    template: ExtendFields.FieldTemplate,
    specific: Option<map<string, ExtendFields.Kwargs>>,
    attrSuffix: Option<seq<string>>,
    languages: seq<(string, string)>,
    counter: int): (r: (ExtendFields.ExtendField, int))
    ensures r.0.cls == ExtendFields.TranslatedFieldClass
    ensures r.0.suffixes == DefaultSuffixes(attrSuffix, languages)
    ensures r.0.creationCounter == counter && r.1 == counter + |r.0.suffixes|
  {
    ExtendFields.NewExtendField(
      ExtendFields.TranslatedFieldClass, template, specific, Some(DefaultSuffixes(attrSuffix, languages)), counter).value
  }

  /** A translated field always has a naming policy, so its fan-out never fails. */
  lemma TranslatedContributeSucceeds(
    template: ExtendFields.FieldTemplate, specific: Option<map<string, ExtendFields.Kwargs>>,
    attrSuffix: Option<seq<string>>, languages: seq<(string, string)>, counter: int,
    name: string, active: Option<string>)
    ensures var (ef, _) := NewTranslatedField(template, specific, attrSuffix, languages, counter);
      var r := ExtendFields.Contribute(ef, name, active);
      && r.Ok?
      && |r.value.fields| == |DefaultSuffixes(attrSuffix, languages)|
  {
  }

  // ---------------------------------------------------------------------------
  // Per-instance accessors.

  /** A model instance: its attribute dictionary. */
  type Instance<V> = map<string, V>

  datatype AccessError =
    | NoSuffixes                    // IndexError: `attr_suffix[0]` of an empty list
    | MissingAttribute(attr: string)  // AttributeError from `getattr`

  /** The language the getter reads: the active one when truthy, else the first suffix. */
  function GetterLanguage(suffixes: seq<string>, active: Option<string>): (r: Result<string, AccessError>)
    ensures r.Err? <==> (active.None? || active.value == "") && |suffixes| == 0
    ensures r.Ok? && active.Some? && active.value != "" ==> r.value == active.value
    ensures r.Ok? && (active.None? || active.value == "") ==> r.value == suffixes[0]
  {
    if active.Some? && active.value != "" then Ok(active.value)
    else if |suffixes| == 0 then Err(NoSuffixes)
    else Ok(suffixes[0])
  }

  /** The column `translated_attrgetter` reads. */
  function GetterAttr(name: string, suffixes: seq<string>, active: Option<string>): Result<string, AccessError> {
    var code :- GetterLanguage(suffixes, active);
    Ok(Naming.ToAttribute(name, Some(code), active))
  }

  /** `translated_attrgetter`: the value of the active language's column, falling back to the first suffix. */
  function Getter<V>(name: string, suffixes: seq<string>, obj: Instance<V>, active: Option<string>)
    : (r: Result<V, AccessError>)
    ensures r.Err? <==> GetterAttr(name, suffixes, active).Err? || GetterAttr(name, suffixes, active).value !in obj
    ensures r.Ok? ==> r.value == obj[GetterAttr(name, suffixes, active).value]
  {
    var attr :- GetterAttr(name, suffixes, active);
    if attr in obj then Ok(obj[attr]) else Err(MissingAttribute(attr))
  }

  /** `translated_attrsetter`: writes one column and nothing else. */
  function Setter<V>(name: string, obj: Instance<V>, value: V, active: Option<string>): (r: Instance<V>)
    ensures r.Keys == obj.Keys + {ManagerBuilder.Phys(name, active)}
    ensures r[ManagerBuilder.Phys(name, active)] == value
    ensures forall k :: k in obj && k != ManagerBuilder.Phys(name, active) ==> r[k] == obj[k]
  {
    obj[ManagerBuilder.Phys(name, active) := value]
  }

  /**
   * With a truthy active language the getter and the setter address the same
   * column, so a value written is the value read back, whatever the suffixes.
   */
  lemma SetThenGet<V>(name: string, suffixes: seq<string>, obj: Instance<V>, value: V, active: Option<string>)
    requires active.Some? && active.value != ""
    ensures Getter(name, suffixes, Setter(name, obj, value, active), active) == Ok(value)
  {
    Naming.ExplicitCodeWins(name, active.value, active, active);
  }

  /**
   * With a truthy active language that is one of the suffixes, the getter
   * reads one of the columns the fan-out generated: the one for that language.
   */
  lemma GetterReadsGeneratedColumn(ef: ExtendFields.ExtendField, name: string, active: Option<string>, j: nat)
    requires j < |ef.suffixes|
    requires active == Some(ef.suffixes[j]) && ef.suffixes[j] != ""
    ensures GetterAttr(name, ef.suffixes, active) == Ok(ExtendFields.ContributeFields(ef, name, active).fields[j])
  {
  }

  /** With no truthy active language the getter reads the first generated column. */
  lemma GetterFallsBackToFirstColumn(ef: ExtendFields.ExtendField, name: string, active: Option<string>)
    requires |ef.suffixes| > 0
    requires active.None? || active.value == ""
    ensures GetterAttr(name, ef.suffixes, active) == Ok(ExtendFields.ContributeFields(ef, name, active).fields[0])
  {
  }

  /**
   * The setter as written, with no active language, writes `<name>_none`
   * while the getter reads the first suffix's column: a value written is
   * not the value read back.
   */
  lemma SetterMissesFallbackColumn<V>(name: string, suffix: string, obj: Instance<V>, before: V, after: V)
    requires Naming.AllAllowed(name) && Naming.AllAllowed(suffix) && suffix != "" && suffix != "none"
    requires obj == map[name + "_" + suffix := before]
    requires before != after
    ensures ManagerBuilder.Phys(name, None) == name + "_none"
    ensures Getter(name, [suffix], Setter(name, obj, after, None), None) == Ok(before)
  {
    var getAttr := name + "_" + suffix;
    var setAttr := name + "_none";
    Naming.NoLanguageGivesNone(name);
    Naming.ToAttributeVerbatim(name, suffix, None);
    assert GetterAttr(name, [suffix], None) == Ok(getAttr);
    assert getAttr != setAttr by {
      assert Naming.AllAllowed("none");
      Naming.ToAttributeVerbatim(name, "none", None);
      Naming.ToAttributeInjective(name, suffix, "none", None);
    }
    var written := Setter(name, obj, after, None);
    assert getAttr in written && written[getAttr] == before;
    GetterReads(name, [suffix], written, None, getAttr);
  }

  /** The getter returns what its resolved column holds. */
  lemma GetterReads<V>(name: string, suffixes: seq<string>, obj: Instance<V>, active: Option<string>, attr: string)
    requires GetterAttr(name, suffixes, active) == Ok(attr) && attr in obj
    ensures Getter(name, suffixes, obj, active) == Ok(obj[attr])
  {
  }

  /** The evidently intended setter: it writes the column the getter reads. */
  function SetterCorrected<V>(name: string, suffixes: seq<string>, obj: Instance<V>, value: V, active: Option<string>)
    : (r: Result<Instance<V>, AccessError>)
    ensures r.Err? <==> GetterAttr(name, suffixes, active).Err?
    ensures r.Ok? ==> Getter(name, suffixes, r.value, active) == Ok(value)
    ensures r.Ok? ==> forall k :: k in obj && k != GetterAttr(name, suffixes, active).value ==> k in r.value && r.value[k] == obj[k]
  {
    var attr :- GetterAttr(name, suffixes, active);
    Ok(obj[attr := value])
  }

  /** Where the original setter is right (a truthy active language), the corrected one agrees with it. */
  lemma SetterCorrectedAgrees<V>(name: string, suffixes: seq<string>, obj: Instance<V>, value: V, active: Option<string>)
    requires active.Some? && active.value != ""
    ensures SetterCorrected(name, suffixes, obj, value, active) == Ok(Setter(name, obj, value, active))
  {
    Naming.ExplicitCodeWins(name, active.value, active, active);
  }

  /** What `__get__` returns: the descriptor itself on class access, else the getter's value. */
  datatype Got<V> = DescriptorItself | FieldValue(value: V)

  function DescriptorGet<V>(name: string, suffixes: seq<string>, obj: Option<Instance<V>>, active: Option<string>)
    : (r: Result<Got<V>, AccessError>)
    ensures obj.None? ==> r == Ok(DescriptorItself)
    ensures obj.Some? ==> (r.Ok? <==> Getter(name, suffixes, obj.value, active).Ok?)
    ensures obj.Some? && r.Ok? ==> r.value == FieldValue(Getter(name, suffixes, obj.value, active).value)
  {
    match obj
    case None => Ok(DescriptorItself)
    case Some(o) =>
      var v :- Getter(name, suffixes, o, active);
      Ok(FieldValue(v))
  }

  // ---------------------------------------------------------------------------
  // The ORM proxy and `update`.

  /** The call that finally reaches Django: the implementation and its keyword arguments. */
  datatype OrmCall<V> = OrmCall(target: ManagerBuilder.Impl, kwargs: map<string, V>)

  /** The names `proxy_from_orm` binds itself, so a keyword argument of that name cannot reach the ORM. */
  const ProxyParameters: set<string> := {"translated_fields", "orm_call"}

  /**
   * `proxy_from_orm(translated, orm_call, **rest)`: a keyword in `rest` that
   * names one of its own parameters fails when the call is bound; otherwise
   * one ORM call receives both keyword maps unpacked together, which fails
   * when they share a key.
   */
  function ProxyFromOrm<V>(translated: map<string, V>, ormCall: ManagerBuilder.Impl, rest: map<string, V>)
    : (r: Result<OrmCall<V>, ManagerBuilder.ManagerError>)
    ensures r.Ok? <==> ProxyParameters !! rest.Keys && translated.Keys !! rest.Keys
    ensures !(ProxyParameters !! rest.Keys) ==> r == Err(ManagerBuilder.ArgumentClash)
    ensures ProxyParameters !! rest.Keys && !(translated.Keys !! rest.Keys) ==> r == Err(ManagerBuilder.DuplicateKeyword)
    ensures r.Ok? ==> r.value.target == ormCall && r.value.kwargs.Keys == translated.Keys + rest.Keys
    ensures r.Ok? ==> forall k :: k in translated ==> r.value.kwargs[k] == translated[k]
    ensures r.Ok? ==> forall k :: k in rest ==> r.value.kwargs[k] == rest[k]
  {
    if !(ProxyParameters !! rest.Keys) then Err(ManagerBuilder.ArgumentClash)
    else if translated.Keys !! rest.Keys then Ok(OrmCall(ormCall, translated + rest))
    else Err(ManagerBuilder.DuplicateKeyword)
  }

  /**
   * `update` as written: after preparing the data it looks the proxy up on
   * the descriptor, which no descriptor class defines, so every call fails.
   */
  function ManagerUpdateAsWritten<V>(
    m: ModelOptions.Manager, descs: ManagerBuilder.Descriptors, kwargs: map<string, V>, active: Option<string>)
    : (r: Result<OrmCall<V>, ManagerBuilder.ManagerError>)
    requires m.cls.TranslatedManager?
    ensures r.Err?
    ensures r.error == ManagerBuilder.NoDescriptor <==> |descs| == 0
    ensures |descs| > 0 ==> r.error == ManagerBuilder.NoProxyOnDescriptor
  {
    match ManagerBuilder.Update(m.cls, descs, kwargs, active)
    case Err(_) => Err(ManagerBuilder.NoDescriptor)
    case Ok(_) => Err(ManagerBuilder.NoProxyOnDescriptor)
  }

  /** The evidently intended `update`: the proxy is the one `_create_manager` stored on the manager. */
  function ManagerUpdate<V>(
    m: ModelOptions.Manager, descs: ManagerBuilder.Descriptors, kwargs: map<string, V>, active: Option<string>)
    : (r: Result<OrmCall<V>, ManagerBuilder.ManagerError>)
    requires m.cls.TranslatedManager?
    ensures r == Err(ManagerBuilder.NoDescriptor) <==> |descs| == 0
    ensures r == Err(ManagerBuilder.NoProxyOnManager) <==> |descs| > 0 && m.ormProxy.None?
    ensures r == Err(ManagerBuilder.ArgumentClash) <==>
      |descs| > 0 && m.ormProxy.Some? && !(ProxyParameters !! (kwargs.Keys - ManagerBuilder.Popped(descs, kwargs)))
    ensures r.Err? ==> r.error != ManagerBuilder.NoProxyOnDescriptor
    ensures r.Ok? ==> r.value.target == ManagerBuilder.Resolve(m.cls.base, ManagerBuilder.UpdateName)
  {
    match ManagerBuilder.Update(m.cls, descs, kwargs, active)
    case Err(_) => Err(ManagerBuilder.NoDescriptor)
    case Ok(call) =>
      match m.ormProxy
      case None => Err(ManagerBuilder.NoProxyOnManager)
      case Some(ProxyFromOrmRef) =>
        ManagerBuilder.PrepareDataPartition(descs, kwargs, active);
        ProxyFromOrm(call.translated, call.finalCall, call.rest)
  }

  /**
   * `Model.objects.update(**kwargs)` through a synthesised manager: the base
   * class's `update` receives the untranslated keyword arguments unchanged
   * and each translated one under its physical column. The call fails
   * when an untranslated keyword is named like a parameter of the proxy,
   * and otherwise exactly when a generated column name is also passed as-is.
   */
  lemma ManagerUpdateRewrites<V>(
    m: ModelOptions.Manager, descs: ManagerBuilder.Descriptors, kwargs: map<string, V>, active: Option<string>)
    requires m.cls.TranslatedManager? && m.ormProxy == Some(ModelOptions.ProxyFromOrmRef)
    requires |descs| > 0
    ensures var r := ManagerUpdate(m, descs, kwargs, active);
      var popped := ManagerBuilder.Popped(descs, kwargs);
      var phys := ManagerBuilder.PhysOf(popped, active);
      var kept := kwargs.Keys - popped;
      && (r.Ok? <==> ProxyParameters !! kept && phys !! kept)
      && (!(ProxyParameters !! kept) ==> r == Err(ManagerBuilder.ArgumentClash))
      && (ProxyParameters !! kept && !(phys !! kept) ==> r == Err(ManagerBuilder.DuplicateKeyword))
      && (r.Ok? ==>
            && r.value.target == ManagerBuilder.Resolve(m.cls.base, ManagerBuilder.UpdateName)
            && r.value.kwargs.Keys == (kwargs.Keys - popped) + phys
            && (forall n :: n in kwargs && n !in popped ==> r.value.kwargs[n] == kwargs[n])
            && (forall k :: k in phys ==>
                  exists n :: n in popped && ManagerBuilder.Phys(n, active) == k && r.value.kwargs[k] == kwargs[n]))
  {
    ManagerBuilder.PrepareDataPartition(descs, kwargs, active);
  }

  // ---------------------------------------------------------------------------
  // Declaring a translated field on a model.

  /** What `contribute_to_class` leaves behind: the generated fields and the registry state. */
  datatype Declared = Declared(contribution: ExtendFields.Contribution, installed: ModelOptions.Installed)

  /**
   * `TranslatedField.contribute_to_class` as written: fan out, then install
   * without an ORM proxy.
   */
  function DeclareAsWritten(
    reg: ModelOptions.Registry, model: ModelOptions.ModelClass, name: string,
    ef: ExtendFields.ExtendField, active: Option<string>): (r: Declared)
    requires ef.cls == ExtendFields.TranslatedFieldClass
    ensures ExtendFields.Contribute(ef, name, active) == Ok(r.contribution)
    ensures r.installed.error.Some? ==>
      r.installed.error.value.MultipleMarkers? || r.installed.error.value == ModelOptions.MissingOrmProxy
    ensures r.installed.error.None? ==>
      model.id in r.installed.registry && r.installed.registry[model.id].extendObj == ExtendFields.Descriptor(ef, false)
  {
    Declared(
      ExtendFields.ContributeFields(ef, name, active),
      ModelOptions.Install(reg, model, name, ExtendFields.Descriptor(ef, false), None))
  }

  /** The evidently intended declaration: install with the library's own proxy. */
  function Declare(
    reg: ModelOptions.Registry, model: ModelOptions.ModelClass, name: string,
    ef: ExtendFields.ExtendField, active: Option<string>): (r: Declared)
    requires ef.cls == ExtendFields.TranslatedFieldClass
    ensures ExtendFields.Contribute(ef, name, active) == Ok(r.contribution)
    ensures r.installed.error.Some? ==> r.installed.error.value.MultipleMarkers?
    ensures r.installed.error.None? ==>
      model.id in r.installed.registry && r.installed.registry[model.id].extendObj == ExtendFields.Descriptor(ef, false)
  {
    Declared(
      ExtendFields.ContributeFields(ef, name, active),
      ModelOptions.Install(reg, model, name, ExtendFields.Descriptor(ef, false), Some(ModelOptions.ProxyFromOrmRef)))
  }

  /** As written, the first translated field of a model that asks for the override is rejected. */
  lemma DeclareAsWrittenRejectsOverride(
    reg: ModelOptions.Registry, model: ModelOptions.ModelClass, name: string,
    ef: ExtendFields.ExtendField, active: Option<string>)
    requires ef.cls == ExtendFields.TranslatedFieldClass
    requires ModelOptions.RequestsOverride(reg, model)
    ensures DeclareAsWritten(reg, model, name, ef, active).installed.error == Some(ModelOptions.MissingOrmProxy)
  {
    ModelOptions.ManagerOverrideConditions(reg, model, name, ExtendFields.Descriptor(ef, false), None);
  }

  /**
   * With the proxy passed, the same declaration succeeds and installs an
   * `objects` manager whose `update` reaches the ORM through `proxy_from_orm`.
   */
  lemma DeclareInstallsManager(
    reg: ModelOptions.Registry, model: ModelOptions.ModelClass, name: string,
    ef: ExtendFields.ExtendField, active: Option<string>)
    requires ef.cls == ExtendFields.TranslatedFieldClass
    requires |reg| <= 1
    requires ModelOptions.RequestsOverride(reg, model)
    ensures var o := Declare(reg, model, name, ef, active).installed;
      var ms := o.meta.localManagers;
      && o.error.None?
      && o.registry.Keys == {model.id}
      && o.meta.extendDescriptor == Some([(name, ExtendFields.Descriptor(ef, false))])
      && |ms| > 0
      && ms[|ms| - 1].name == ModelOptions.ObjectsName
      && ms[|ms| - 1].cls.TranslatedManager?
      && ms[|ms| - 1].ormProxy == Some(ModelOptions.ProxyFromOrmRef)
  {
    var desc := ExtendFields.Descriptor(ef, false);
    var proxy := Some(ModelOptions.ProxyFromOrmRef);
    ModelOptions.ManagerOverrideConditions(reg, model, name, desc, proxy);
    ModelOptions.InstallRegistryKeys(reg, model, name, desc, proxy);
    var opts := ModelOptions.CreateManagerOpts(model.meta, proxy).value;
    assert |opts.localManagers| > 0;
  }

  /** For models that do not ask for the override, passing the proxy changes nothing in `_meta`. */
  lemma DeclareAgreesWithoutOverride(
    reg: ModelOptions.Registry, model: ModelOptions.ModelClass, name: string,
    ef: ExtendFields.ExtendField, active: Option<string>)
    requires ef.cls == ExtendFields.TranslatedFieldClass
    requires !ModelOptions.RequestsOverride(reg, model)
    ensures var a := DeclareAsWritten(reg, model, name, ef, active).installed;
      var b := Declare(reg, model, name, ef, active).installed;
      a.meta == b.meta && a.error == b.error && a.registry.Keys == b.registry.Keys
  {
  }

  /**
   * The shape of the sample application's `Question` model: two translated
   * fields and an overriding marker. The sample passes `auto=` to
   * `TranslatedField`, which does not accept it; this is the model with
   * `auto=` removed, so that the class body reaches `install`.
   */
  function QuestionModel(meta: ModelOptions.Opts): ModelOptions.ModelClass {
    ModelOptions.ModelClass("testapp.Question", [
      ("__module__", ModelOptions.OtherAttr),
      ("ExtendMeta", ModelOptions.MarkerClass(ModelOptions.Marker(true))),
      ("__str__", ModelOptions.OtherAttr)], meta)
  }

  /**
   * Declaring `Question.question` (with `auto=` removed) on a fresh registry:
   * rejected as written, accepted when corrected.
   */
  lemma QuestionDeclaration(meta: ModelOptions.Opts, ef: ExtendFields.ExtendField, active: Option<string>)
    requires ef.cls == ExtendFields.TranslatedFieldClass
    ensures DeclareAsWritten(map[], QuestionModel(meta), "question", ef, active).installed.error
      == Some(ModelOptions.MissingOrmProxy)
    ensures Declare(map[], QuestionModel(meta), "question", ef, active).installed.error.None?
  {
    var model := QuestionModel(meta);
    assert ModelOptions.Markers(model.attrs) == [("ExtendMeta", ModelOptions.Marker(true))] by {
      assert model.attrs[1..][1..][1..] == [];
    }
    DeclareAsWrittenRejectsOverride(map[], model, "question", ef, active);
    DeclareInstallsManager(map[], model, "question", ef, active);
  }

  /** An update of a single translated field that is the model's only descriptor. */
  lemma SingleFieldUpdate<V>(
    m: ModelOptions.Manager, name: string, ef: ExtendFields.ExtendField, v: V, active: Option<string>)
    requires m.cls.TranslatedManager? && m.ormProxy == Some(ModelOptions.ProxyFromOrmRef)
    ensures ManagerUpdateAsWritten(m, [(name, ExtendFields.Descriptor(ef, false))], map[name := v], active)
      == Err(ManagerBuilder.NoProxyOnDescriptor)
    ensures ManagerUpdate(m, [(name, ExtendFields.Descriptor(ef, false))], map[name := v], active)
      == Ok(OrmCall(ManagerBuilder.Resolve(m.cls.base, ManagerBuilder.UpdateName),
                    map[ManagerBuilder.Phys(name, active) := v]))
  {
    var descs: ManagerBuilder.Descriptors := [(name, ExtendFields.Descriptor(ef, false))];
    var kwargs := map[name := v];
    var phys := ManagerBuilder.Phys(name, active);
    assert ManagerBuilder.PrepareFrom(descs, 1, map[phys := v], map[], active) == (map[phys := v], map[]);
    assert kwargs - {name} == map[];
    assert ManagerBuilder.PrepareFrom(descs, 0, map[], kwargs, active) == (map[phys := v], map[]);
    assert map[phys := v] + map[] == map[phys := v];
  }

  /**
   * `Question.objects.update(question=v)` once the `question` field alone has
   * been declared by the corrected declaration (the sample also declares
   * `answer`, whose descriptor would then come last): as written it fails
   * looking the proxy up on the descriptor; corrected, the base `update`
   * receives `v` under the active language's column.
   */
  lemma QuestionUpdate<V>(meta: ModelOptions.Opts, ef: ExtendFields.ExtendField, active: Option<string>, v: V)
    requires ef.cls == ExtendFields.TranslatedFieldClass
    ensures var o := Declare(map[], QuestionModel(meta), "question", ef, active).installed;
      var ms := o.meta.localManagers;
      && |ms| > 0 && ms[|ms| - 1].cls.TranslatedManager? && o.meta.extendDescriptor.Some?
      && var m := ms[|ms| - 1];
      && ManagerUpdateAsWritten(m, o.meta.extendDescriptor.value, map["question" := v], active)
         == Err(ManagerBuilder.NoProxyOnDescriptor)
      && ManagerUpdate(m, o.meta.extendDescriptor.value, map["question" := v], active)
         == Ok(OrmCall(ManagerBuilder.Resolve(m.cls.base, ManagerBuilder.UpdateName),
                       map[ManagerBuilder.Phys("question", active) := v]))
  {
    var model := QuestionModel(meta);
    assert ModelOptions.RequestsOverride(map[], model) by {
      assert ModelOptions.Markers(model.attrs) == [("ExtendMeta", ModelOptions.Marker(true))] by {
        assert model.attrs[1..][1..][1..] == [];
      }
    }
    DeclareInstallsManager(map[], model, "question", ef, active);
    var o := Declare(map[], model, "question", ef, active).installed;
    var ms := o.meta.localManagers;
    SingleFieldUpdate(ms[|ms| - 1], "question", ef, v, active);
  }
}

=== FILE: translators.dfy ===
/**
 * The Deepl translation backend: resolving a language code through the
 * translator's `LANGUAGE_MAPPER`, mapping client failures onto the error
 * taxonomy, validating the response, and building the translator from the
 * environment. The remote call is a parameter (`client`) of the model.
 */
module Translators {
  import opened Results
  import opened Backend

  const DeeplKeyVar := "DEEPL_TRANSLATOR_KEY"

  /** The `LANGUAGE_MAPPER` class attribute: absent, or some Python value. */
  datatype MapperAttr = MapperAbsent | MapperValue(v: PyVal)

  /** The mapper the translator class ships with. */
  const DefaultMapperAttr: MapperAttr := MapperValue(PyDict([
    (PyStr("en_us"), PyStr("EN-US")),
    (PyStr("ru"), PyStr("RU")),
    (PyStr("de"), PyStr("DE"))
  ]))

  const DefaultMapper: map<string, string> := map["en_us" := "EN-US", "ru" := "RU", "de" := "DE"]

  predicate StringItems(entries: seq<(PyVal, PyVal)>) {
    forall i :: 0 <= i < |entries| ==> entries[i].0.PyStr? && entries[i].1.PyStr?
  }

  /** No later item has the same key as item `i`; in a Python dict, every item. */
  predicate LastWithKey(entries: seq<(PyVal, PyVal)>, i: nat)
    requires i < |entries|
  {
    forall j :: i < j < |entries| ==> entries[j].0 != entries[i].0
  }

  /** The dict's items as a Dafny map (a dict never repeats a key; a later item would win). */
  function ItemsToMap(entries: seq<(PyVal, PyVal)>): (m: map<string, string>)
    requires StringItems(entries)
    ensures forall k :: k in m <==> exists i :: 0 <= i < |entries| && entries[i].0 == PyStr(k)
    ensures forall k :: k in m ==> exists i :: 0 <= i < |entries| && entries[i] == (PyStr(k), PyStr(m[k]))
  {
    if |entries| == 0 then map[]
    else
      var last := entries[|entries| - 1];
      var m0 := ItemsToMap(entries[..|entries| - 1]);
      assert forall i :: 0 <= i < |entries| - 1 ==> entries[..|entries| - 1][i] == entries[i];
      m0[last.0.s := last.1.s]
  }

  /** The map of a non-empty item list is the map of all but the last item, updated by the last item. */
  lemma ItemsToMapSnoc(entries: seq<(PyVal, PyVal)>)
    requires StringItems(entries) && |entries| > 0
    ensures StringItems(entries[..|entries| - 1])
    ensures ItemsToMap(entries)
      == ItemsToMap(entries[..|entries| - 1])[entries[|entries| - 1].0.s := entries[|entries| - 1].1.s]
  {
    var prefix := entries[..|entries| - 1];
    assert forall j :: 0 <= j < |entries| - 1 ==> prefix[j] == entries[j];
  }

  /** An item that is last with its key stays so when the final item is dropped. */
  lemma LastWithKeyPrefix(entries: seq<(PyVal, PyVal)>, i: nat)
    requires i < |entries| - 1 && LastWithKey(entries, i)
    ensures entries[..|entries| - 1][i] == entries[i]
    ensures LastWithKey(entries[..|entries| - 1], i)
  {
    var prefix := entries[..|entries| - 1];
    assert forall j :: i < j < |entries| - 1 ==> prefix[j] == entries[j];
  }

  /** Each key maps to the value of its last item: for a Python dict, every item is in the map as stored. */
  lemma {:induction false} ItemsToMapValues(entries: seq<(PyVal, PyVal)>, i: nat)
    requires StringItems(entries)
    requires i < |entries| && LastWithKey(entries, i)
    ensures entries[i].0.s in ItemsToMap(entries)
    ensures ItemsToMap(entries)[entries[i].0.s] == entries[i].1.s
  {
    ItemsToMapSnoc(entries);
    if i < |entries| - 1 {
      LastWithKeyPrefix(entries, i);
      ItemsToMapValues(entries[..|entries| - 1], i);
    }
  }

  /** `_get_language_mapper`: the mapper must exist, be a dict, and hold only string keys and values. */
  function GetLanguageMapper(attr: MapperAttr): (r: Result<map<string, string>, ApiError>)
    ensures r.Ok? <==> attr.MapperValue? && attr.v.PyDict? && StringItems(attr.v.entries)
    ensures r.Err? ==> r.error == MapperAssertion
    ensures r.Ok? ==> forall k :: k in r.value <==>
      exists i :: 0 <= i < |attr.v.entries| && attr.v.entries[i].0 == PyStr(k)
    ensures r.Ok? ==> forall i :: 0 <= i < |attr.v.entries| && LastWithKey(attr.v.entries, i) ==>
      attr.v.entries[i].0.s in r.value && r.value[attr.v.entries[i].0.s] == attr.v.entries[i].1.s
  {
    if attr.MapperAbsent? then Err(MapperAssertion)
    else if !attr.v.PyDict? then Err(MapperAssertion)
    else if !StringItems(attr.v.entries) then Err(MapperAssertion)
    else
      var entries := attr.v.entries;
      assert forall i :: 0 <= i < |entries| && LastWithKey(entries, i) ==>
        entries[i].0.s in ItemsToMap(entries) && ItemsToMap(entries)[entries[i].0.s] == entries[i].1.s by {
        forall i | 0 <= i < |entries| && LastWithKey(entries, i) {
          ItemsToMapValues(entries, i);
        }
      }
      Ok(ItemsToMap(entries))
  }

  /** A dict of string items (a Python dict never repeats a key) is accepted and read back item by item. */
  lemma MapperOfDict(attr: MapperAttr)
    requires attr.MapperValue? && attr.v.PyDict? && StringItems(attr.v.entries)
    requires forall i :: 0 <= i < |attr.v.entries| ==> LastWithKey(attr.v.entries, i)
    ensures GetLanguageMapper(attr).Ok?
    ensures forall k :: k in GetLanguageMapper(attr).value <==>
      exists i :: 0 <= i < |attr.v.entries| && attr.v.entries[i].0 == PyStr(k)
    ensures forall i :: 0 <= i < |attr.v.entries| ==>
      && attr.v.entries[i].0.PyStr?
      && attr.v.entries[i].1.PyStr?
      && attr.v.entries[i].0.s in GetLanguageMapper(attr).value
      && GetLanguageMapper(attr).value[attr.v.entries[i].0.s] == attr.v.entries[i].1.s
  {
  }

  /** The shipped mapper holds string items with distinct keys. */
  lemma DefaultMapperDistinct()
    ensures StringItems(DefaultMapperAttr.v.entries)
    ensures forall i :: 0 <= i < |DefaultMapperAttr.v.entries| ==> LastWithKey(DefaultMapperAttr.v.entries, i)
  {
    var e := DefaultMapperAttr.v.entries;
    assert LastWithKey(e, 0) && LastWithKey(e, 1) && LastWithKey(e, 2);
  }

  /** A map with exactly the keys of the shipped mapper's items has the three shipped codes as keys. */
  lemma DefaultMapperKeys(m: map<string, string>)
    requires forall k :: k in m <==>
      exists i :: 0 <= i < |DefaultMapperAttr.v.entries| && DefaultMapperAttr.v.entries[i].0 == PyStr(k)
    ensures m.Keys == {"en_us", "ru", "de"}
  {
    var e := DefaultMapperAttr.v.entries;
    assert e[0].0 == PyStr("en_us") && e[1].0 == PyStr("ru") && e[2].0 == PyStr("de");
    forall k | k in m ensures k == "en_us" || k == "ru" || k == "de" {
      var i :| 0 <= i < |e| && e[i].0 == PyStr(k);
    }
  }

  /** A map holding each of the shipped mapper's items holds the three shipped pairs. */
  lemma DefaultMapperValues(m: map<string, string>)
    requires forall i :: 0 <= i < |DefaultMapperAttr.v.entries| ==>
      && DefaultMapperAttr.v.entries[i].0.PyStr?
      && DefaultMapperAttr.v.entries[i].1.PyStr?
      && DefaultMapperAttr.v.entries[i].0.s in m
      && m[DefaultMapperAttr.v.entries[i].0.s] == DefaultMapperAttr.v.entries[i].1.s
    ensures "en_us" in m && "ru" in m && "de" in m
    ensures m["en_us"] == "EN-US" && m["ru"] == "RU" && m["de"] == "DE"
  {
    var e := DefaultMapperAttr.v.entries;
    assert e[0] == (PyStr("en_us"), PyStr("EN-US"));
    assert e[1] == (PyStr("ru"), PyStr("RU"));
    assert e[2] == (PyStr("de"), PyStr("DE"));
  }

  /** The three shipped pairs, and no other key, make `DefaultMapper`. */
  lemma DefaultMapperFromPairs(m: map<string, string>)
    requires m.Keys == {"en_us", "ru", "de"}
    requires m["en_us"] == "EN-US" && m["ru"] == "RU" && m["de"] == "DE"
    ensures m == DefaultMapper
  {
  }

  /** The class attribute the translator ships with passes the checks and reads as `DefaultMapper`. */
  lemma DefaultMapperAccepted()
    ensures GetLanguageMapper(DefaultMapperAttr) == Ok(DefaultMapper)
  {
    DefaultMapperDistinct();
    MapperOfDict(DefaultMapperAttr);
    var m := GetLanguageMapper(DefaultMapperAttr).value;
    DefaultMapperKeys(m);
    DefaultMapperValues(m);
    DefaultMapperFromPairs(m);
  }

  function ReplaceAll(s: string, from: char, to: char): (r: string)
    ensures |r| == |s|
    ensures forall i :: 0 <= i < |s| ==> r[i] == (if s[i] == from then to else s[i])
  {
    seq(|s|, i requires 0 <= i < |s| => if s[i] == from then to else s[i])
  }

  /** The single retry spelling: every `_` becomes `-` if there is one, otherwise every `-` becomes `_`. */
  function SwapSeparator(t: string): string {
    if '_' in t then ReplaceAll(t, '_', '-') else ReplaceAll(t, '-', '_')
  }

  /** A mapper lookup that Python treats as a hit: present and non-empty. */
  predicate Hit(mapper: map<string, string>, code: string) {
    code in mapper && mapper[code] != ""
  }

  /** The Deepl code for a Django language code: a direct hit, else one retry with the separators swapped. */
  function ResolveCode(mapper: map<string, string>, target: string): (r: Result<string, ApiError>)
    ensures r.Ok? ==> r.value in mapper.Values && r.value != ""
    ensures Hit(mapper, target) ==> r == Ok(mapper[target])
    ensures !Hit(mapper, target) && Hit(mapper, SwapSeparator(target)) ==> r == Ok(mapper[SwapSeparator(target)])
    ensures r.Err? <==> !Hit(mapper, target) && !Hit(mapper, SwapSeparator(target))
    ensures r.Err? ==> r.error == DataError(Translator)
  {
    if Hit(mapper, target) then Ok(mapper[target])
    else
      var retry := SwapSeparator(target);
      if Hit(mapper, retry) then Ok(mapper[retry]) else Err(DataError(Translator))
  }

  /** With the shipped mapper, `en-us` resolves through the retry and upper-case `EN_US` does not resolve. */
  lemma DefaultMapperResolution()
    ensures ResolveCode(DefaultMapper, "en_us") == Ok("EN-US")
    ensures ResolveCode(DefaultMapper, "en-us") == Ok("EN-US")
    ensures ResolveCode(DefaultMapper, "EN_US") == Err(DataError(Translator))
  {
    assert '_' !in "en-us";
    assert ReplaceAll("en-us", '-', '_') == "en_us";
    assert "en-us" !in DefaultMapper;
    assert '_' in "EN_US" by { assert "EN_US"[2] == '_'; }
    assert ReplaceAll("EN_US", '_', '-') == "EN-US";
    assert "EN-US" !in DefaultMapper;
  }

  datatype DeeplResponse =
    | TextResult(text: PyVal, detectedSourceLang: PyVal)
    | OtherResponse(typeName: string)

  datatype DeeplException = ConnectionException | OtherDeeplException(name: string)

  /** What the Deepl client did when asked to translate: returned a response or raised. */
  datatype DeeplReply = Replied(response: DeeplResponse) | Raised(exception: DeeplException)

  datatype TextResultModel = TextResultModel(text: string, detectedSourceLang: string)

  /** `validate_response`: only a `TextResult` whose two fields are strings is accepted, and it is copied unchanged. */
  function ValidateResponse(response: DeeplResponse): (r: Result<TextResultModel, ApiError>)
    ensures r.Ok? <==> response.TextResult? && response.text.PyStr? && response.detectedSourceLang.PyStr?
    ensures r.Ok? ==> PyStr(r.value.text) == response.text && PyStr(r.value.detectedSourceLang) == response.detectedSourceLang
    ensures r.Err? ==> r.error == DataError(Translator)
  {
    match response
    case OtherResponse(_) => Err(DataError(Translator))
    case TextResult(text, lang) =>
      if text.PyStr? && lang.PyStr? then Ok(TextResultModel(text.s, lang.s))
      else Err(DataError(Translator))
  }

  /** `make_request`: a connection failure is re-raised as a translator connection error; other exceptions pass through. */
  function MakeRequest(reply: DeeplReply): (r: Result<DeeplResponse, ApiError>)
    ensures reply.Replied? ==> r == Ok(reply.response)
    ensures reply == Raised(ConnectionException) ==> r == Err(ConnectionError(Translator))
    ensures reply.Raised? && reply.exception.OtherDeeplException? ==> r == Err(Uncaught(reply.exception.name))
  {
    match reply
    case Replied(response) => Ok(response)
    case Raised(ConnectionException) => Err(ConnectionError(Translator))
    case Raised(OtherDeeplException(name)) => Err(Uncaught(name))
  }

  /**
   * `translate_text`: check the mapper, resolve the target code, call the
   * client once with the resolved code and validate its answer.
   */
  function TranslateText(attr: MapperAttr, src: string, target: string, client: (string, string) -> DeeplReply)
    : (r: Result<TextResultModel, ApiError>)
    ensures r.Ok? ==>
      && GetLanguageMapper(attr).Ok?
      && var code := ResolveCode(GetLanguageMapper(attr).value, target);
      && code.Ok?
      && client(src, code.value) == Replied(TextResult(PyStr(r.value.text), PyStr(r.value.detectedSourceLang)))
    ensures GetLanguageMapper(attr).Ok? && ResolveCode(GetLanguageMapper(attr).value, target).Err? ==>
      r == Err(DataError(Translator))
    ensures GetLanguageMapper(attr).Err? ==> r == Err(MapperAssertion)
    ensures GetLanguageMapper(attr).Ok? && ResolveCode(GetLanguageMapper(attr).value, target).Ok? ==>
      var code := ResolveCode(GetLanguageMapper(attr).value, target).value;
      && (client(src, code).Replied? ==> r == ValidateResponse(client(src, code).response))
      && (client(src, code).Raised? ==> r == Err(MakeRequest(client(src, code)).error))
  {
    var mapper :- GetLanguageMapper(attr);
    var code :- ResolveCode(mapper, target);
    var response :- MakeRequest(client(src, code));
    ValidateResponse(response)
  }

  datatype DeeplTranslator = DeeplTranslator(authKey: string)

  /** `get_translator`: fails exactly when `DEEPL_TRANSLATOR_KEY` is unset or empty. */
  function GetTranslator(env: map<string, string>): (r: Result<DeeplTranslator, ApiError>)
    ensures r.Ok? <==> EnvSet(env, DeeplKeyVar)
    ensures r.Ok? ==> r.value.authKey == env[DeeplKeyVar]
    ensures r.Err? ==> r.error == MissingEnv([DeeplKeyVar])
  {
    if EnvSet(env, DeeplKeyVar) then Ok(DeeplTranslator(env[DeeplKeyVar]))
    else Err(MissingEnv([DeeplKeyVar]))
  }
}
